=== FILE: README.md ===
# A verified model of a small web search engine

The system has three programs:
- a breadth-first web crawler (`crawler.py`);
- an indexer that turns crawled pages into an inverted index of word → URL → occurrence count (`indexer.py`);
- a query engine that scores pages against a query and ranks them (`serving.py`).

This project models the core of each in Dafny and proves what each promises.

Six modules, one per file:

- `Text` (`text.dfy`) is the text normaliser that the indexer and the query engine share. It:
  - lower-cases the text;
  - blanks out every character that is neither a lower-case ASCII letter nor whitespace;
  - splits on whitespace (Python's `str.split()`, with Python's exact `str.isspace` set);
  - drops stopwords;
  - stems what remains.

  The stemmer and the stopword set are a `Normaliser` parameter, so every lemma holds for any stemmer and any stopword set.
- `Postings` (`postings.dfy`) models an insertion-ordered Python dict from URL to an integer. It serves both as one row of the index and as the query engine's running score table. Key order decides how tied search results are ordered, so the model keeps the order instead of using a map.
- `Indexer` (`indexer.dfy`) models `build_inverted_index` in `indexer.py`:
  - the crawl results, as the sequence of `(url, page)` items;
  - the per-page text built by joining the non-empty fields;
  - the counting loop;
  - the metadata table, with the description truncated to 200 characters.
- `Serving` (`serving.dfy`) models `preprocess_query` and `search` in `serving.py`:
  - score accumulation;
  - the stable descending sort (`sorted(..., reverse=True)` keeps tied items in input order);
  - the join with metadata.
- `Crawler` (`crawler.dfy`) models `crawl` in `crawler.py`. The network and BeautifulSoup become an oracle `fetch`. It maps a URL either to a failure or to a Content-Type header plus the hrefs of the links inside the page's content region (`div#mw-content-text > div.mw-parser-output`). `urljoin` becomes the parameter `join`.
  - `Crawl` takes the source's arguments plus these two oracles. It builds a `Config` with `Site`, which fixes the skipped href prefixes to the four that `crawl` uses (`SkippedPrefixes`).
  - The loop itself, `CrawlLoop`, works for any `Config`. The properties of runs are stated for any list of skipped prefixes, so the lemmas do not depend on that constant.
  - The loop returns the visited set, as the source does. It also returns the trace of its iterations, one `Event` per pass through the loop. The predicate `Run` is a declarative account of such a trace: each iteration is the one its predecessors determine. `Crawl` is proved to produce a finished run, and crawling's properties are lemmas about runs:
    - the page budget;
    - breadth-first order;
    - where every queued link came from;
    - closure of the visited set under followed links;
    - uniqueness of the run.
- `Seqs` (`seqs.dfy`) holds general lemmas about sequences that the other modules' proofs share.

The crawler marks a URL visited only after a successful HTML fetch. A URL whose request fails, or whose Content-Type is not HTML, is not added to `visited`, so it can be fetched again if it is queued again (`crawler.py:20-28`). `IterateCases` and `CrawledEntries` state this.

## Model

| member | source | states |
|---|---|---|
| `Text.Clean` | indexer.py:34-35 | The cleaned text has the input's length, and each of its characters is a lower-case ASCII letter or whitespace. Position by position: a lower-case letter is kept, an upper-case ASCII letter becomes its lower case (code point plus 32), whitespace is kept, and every other character becomes a space. |
| `Text.CleanCharClassifies` | indexer.py:34-35 | A character becomes a letter exactly when it is an ASCII letter of either case. Every other character becomes whitespace: punctuation, digits, non-ASCII characters and whitespace itself. |
| `Text.CleanAppend` | indexer.py:34-35 | Cleaning works one character at a time, so cleaning a concatenation concatenates the cleaned parts. |
| `Text.SplitWords` | indexer.py:36 | Every piece `split()` returns is non-empty, contains no whitespace, and consists of characters of the input. |
| `Text.SplitSound` | indexer.py:36 | The input is exactly its words interleaved with whitespace gaps, and the gaps between consecutive words are non-empty. Nothing is lost or invented. |
| `Text.SplitUnique` | indexer.py:36 | The converse: splitting any interleaving of whitespace gaps and words returns exactly those words. Together with `SplitSound`, this pins `split()` down completely. |
| `Text.SplitAtSpace` | indexer.py:36 | A whitespace character separates: splitting `a + [c] + b` gives the words of `a` followed by the words of `b`. |
| `Text.Words` | indexer.py:34-36 | Every word handed to the stopword filter is a non-empty run of lower-case ASCII letters. |
| `Text.Kept` | indexer.py:37 | The filter keeps a word exactly when it is not a stopword. A single word is kept as itself, once, unless it is a stopword. With `KeptAppend`, this fixes the filter on every list: each non-stopword occurrence is kept exactly once, in place. |
| `Text.KeptAppend` | indexer.py:37 | The stopword filter distributes over concatenation and keeps order. |
| `Text.PreprocessSound` | indexer.py:33-38 | Every token is the stem of some letter-only word of the text that is not a stopword. |
| `Text.PreprocessComplete` | indexer.py:33-38 | Completeness of the token list: the word at index `j` of the text, when it is not a stopword, yields a token. That token's index is the number of words kept before `j`, and the token is the word's stem. It complements `PreprocessSound`, which says every token comes from such a word. |
| `Text.PreprocessAtSeparator` | indexer.py:33-38 | Any non-letter character splits the text: the tokens of `a + [c] + b` are the tokens of `a` followed by those of `b`. |
| `Text.PreprocessJoin` | indexer.py:52-53 | Joining two texts with a space never fuses words across the join; the tokens are concatenated. |
| `Text.PreprocessEmpty` | indexer.py:33-38 | The empty text yields no tokens. |
| `Postings.Get` | serving.py:35 | `d.get(url, 0)` is 0 for an absent key, and otherwise is the count stored with that key. |
| `Postings.Bump` | indexer.py:55 | `d[url] = d.get(url, 0) + delta` changes only the value at `url`. Existing keys keep their order; a new key goes last. Every entry is an old entry or the updated one, and distinct keys stay distinct. |
| `Postings.FirstOccurrencesSpec` | serving.py:30-35 | The first-occurrence order of a list of URLs contains every URL of the list, and each only once. It is the reference for the key order of the score table. |
| `Indexer.PageMap` | indexer.py:45 | Every crawled URL is a key of the results dict, and every key is a crawled URL. |
| `Indexer.Prefix` | indexer.py:48 | `s[:200]` has length `min(len(s), 200)` and is a prefix of `s`. |
| `Indexer.MetaFields` | indexer.py:46-49 | A page's metadata has exactly the keys title and description. The title is the page's title; the description is the first `min(len, 200)` characters of the page's description. |
| `Indexer.MetadataOf` | indexer.py:45-49 | The metadata table has one row per crawled URL, built from that URL's page. |
| `Indexer.PreprocessJoinNonEmpty` | indexer.py:52-53 | Normalising the space-join of the non-empty fields equals normalising each field separately and concatenating the tokens. |
| `Indexer.PageTokensByField` | indexer.py:52-53 | A page's tokens are the tokens of its title, then its description, then its content. |
| `Indexer.AddOccurrenceCount` | indexer.py:55 | One increment raises the count of exactly one (word, URL) pair by one. |
| `Indexer.AddOccurrencePresent` | indexer.py:55 | After one increment, a (word, URL) pair is present exactly when it was present before or is the pair incremented. |
| `Indexer.AddOccurrenceWellFormed` | indexer.py:42-55 | Rows stay non-empty, with distinct URLs and counts of at least one. |
| `Indexer.AddTokensCount` | indexer.py:54-55 | After a page's tokens are added, each word's count for that page has grown by the word's number of occurrences among the tokens. Other pages are unchanged. |
| `Indexer.AddTokensPresent` | indexer.py:54-55 | A pair is present after the loop exactly when it was present before, or the URL is this page and the word is one of its tokens. |
| `Indexer.AddTokensKeys` | indexer.py:54-55 | The index's words after the loop are the words before it plus the page's tokens. |
| `Indexer.IndexCount` | indexer.py:41-57 | For distinct crawled URLs, the count stored for (word, URL) is the number of times the word occurs among that page's tokens. |
| `Indexer.IndexPresent` | indexer.py:41-57 | A (word, URL) pair is in the index exactly when the word is a token of that URL's page. |
| `Indexer.IndexWellFormed` | indexer.py:41-57 | Every row of the built index is non-empty, lists each URL once, and has positive counts. |
| `Indexer.BuildCounts` | indexer.py:41-57 | The built index is well formed. Its counts are the per-page token frequencies, and its entries are exactly the (token, page) pairs. |
| `Indexer.ColumnIsTermFreq` | indexer.py:41-57 | Reading the index by URL recovers exactly the term-frequency table of that page's tokens. |
| `Indexer.ColumnSum` | indexer.py:41-57 | A page's counts across all words add up to its number of tokens. |
| `Indexer.BuildOrderIndependent` | indexer.py:45-57 | Two orderings of the same crawl results yield the same counts, the same words and the same metadata. Only the order of URLs inside a row can differ. |
| `Indexer.MetadataOrderIndependent` | indexer.py:45-49 | The metadata table depends only on the results dict, not on the iteration order. |
| `Serving.PreprocessQuery` | serving.py:13-18 | Queries are normalised exactly as indexed pages are, so query tokens and index words share one vocabulary. |
| `Serving.AddPostings` | serving.py:34-35 | Adding one word's postings raises each URL's score by that URL's total in the row. The scored URLs grow by the row's URLs. Key order: URLs already scored keep their places, and new URLs are appended in the order they first occur in the row (`Postings.Extend`). |
| `Serving.Scores` | serving.py:30-35 | A URL's score is the sum, over the query tokens (repeats included), of its count in each token's row. A URL is scored exactly when some query token's row lists it. Scores are listed once per URL. The table lists URLs in first-scored order: it equals the first occurrences (`Postings.FirstOccurrences`) of the query tokens' rows concatenated token by token. |
| `Serving.ScoresOrderStable` | serving.py:30-35 | Later query tokens only append URLs to the score table: the URL order after the first `i` tokens is a prefix of the order after the first `j` tokens, for `i <= j`. |
| `Serving.ScorePositive` | serving.py:30-35 | When the index has positive counts, every hit URL has a score of at least 1. |
| `Serving.InsertDesc` | serving.py:38 | Insertion adds the new entry and nothing else: the result is a permutation of the old list plus the new entry. |
| `Serving.InsertDescSorted` | serving.py:38 | Inserting into a descending list keeps it descending. |
| `Serving.InsertDescStable` | serving.py:38 | The inserted entry goes after every entry of equal score. |
| `Serving.SortDesc` | serving.py:38 | The ranking is sorted by descending score and is a permutation of the score table. |
| `Serving.SortDescStable` | serving.py:38 | The sort is stable: for every score, the entries with that score keep their score-table order. |
| `Serving.SortDescDistinct` | serving.py:38 | Ranking keeps URLs distinct. |
| `Serving.StableSortUnique` | serving.py:38 | Two descending lists that agree on the order of entries at every score are equal. So any stable descending sort gives this ranking. |
| `Serving.Search` | serving.py:25-50 | There is one result per scored URL, in descending score order. Each result carries the metadata title and description, or "" when they are missing. |
| `Serving.SearchHits` | serving.py:25-50 | Result URLs are distinct. A URL is returned exactly when some query token's row lists it, and its score is the summed count over the query tokens. |
| `Serving.TiedUrlsJoin` | serving.py:41-48 | Joining with metadata keeps the order of the tied URLs at every score. |
| `Serving.SearchTies` | serving.py:38-48 | Results with equal scores appear in the score table's order. By `Serving.Scores`, that is the order in which their URLs were first scored. |
| `Serving.SearchRankingDetermined` | serving.py:38 | Any stably sorted descending ranking of the scores is the one returned. |
| `Serving.SearchEmpty` | serving.py:30-50 | The result is empty exactly when no query token has a non-empty row in the index. |
| `Serving.SearchScoresPositive` | serving.py:30-50 | With positive index counts, every returned score is at least 1. |
| `Serving.SearchBuiltIndex` | serving.py:25-50 | Over an index built by the indexer, every returned score is at least 1. |
| `Crawler.ContainsSpec` | crawler.py:22 | The substring test `"text/html" in ...` holds exactly when the needle occurs at some position of the header. |
| `Crawler.DefragSpec` | crawler.py:44 | `urldefrag` keeps the prefix before the first `#`. The result has no `#`, and a URL without `#` is unchanged. |
| `Crawler.DiscoverLinks` | crawler.py:36-47 | Each queued link is one level deeper, unvisited and fragment-free, and comes from a non-skipped href whose resolved URL starts with "http". Conversely, every such href whose URL is unvisited is queued. |
| `Crawler.DiscoverAppend` | crawler.py:36-47 | The href loop handles hrefs one at a time, in document order. The links of `a + b` are the links of `a` followed by the links of `b`. With the single-href case in `Discover`'s contract, each followed href to an unvisited URL queues exactly one link in place, even when an earlier href led to the same URL. |
| `Crawler.DiscoverIgnoresSkipped` | crawler.py:40-41 | An href with a skipped prefix contributes nothing, wherever it appears. |
| `Crawler.FollowLinks` | crawler.py:36-47 | The imperative link loop queues exactly the links `Discover` characterises. |
| `Crawler.IterateCases` | crawler.py:16-47 | One iteration skips visited or too-deep entries. It crawls exactly the unvisited entries within the depth cap whose fetch succeeds with an HTML Content-Type. At the depth cap it queues nothing. Its links are one level deeper and point neither to visited pages nor back to the page itself. |
| `Crawler.Visit` | crawler.py:17-47 | The loop body computes the iteration outcome given by `Iterate`. |
| `Crawler.CrawlLoop` | crawler.py:15-52 | The loop yields a finished run. The returned set is the run's visited set: all HTML pages, at most `max(max_pages, 0)` of them. |
| `Crawler.Crawl` | crawler.py:7-52 | With the source's skip prefixes: the crawl is a finished run; it stops only on budget or an empty queue; it visits at most `max(max_pages, 0)` pages, each served as HTML. |
| `Crawler.CrawlBudget` | crawler.py:15 | No run visits more than `max(max_pages, 0)` pages. |
| `Crawler.CrawledEntries` | crawler.py:17-28 | Every visited URL was crawled by some iteration within the depth cap and was served as HTML. |
| `Crawler.CrawledOnce` | crawler.py:17-28 | A crawled page is never fetched again: after it is crawled, every later entry for it is skipped as already visited. |
| `Crawler.IterateLinks` | crawler.py:30-47 | A queued link comes from a crawled page below the depth cap, through one of its non-skipped hrefs. It starts with "http", has no fragment, and is not yet visited. |
| `Crawler.LinkProvenance` | crawler.py:30-47 | Every link ever queued in a run was found on an earlier crawled page below the depth cap, through a followed href, and was unvisited at that time. |
| `Crawler.FrontierLayered` | crawler.py:9-47 | The queue's history is sorted by depth, and no entry is more than one level deeper than the entry being processed. |
| `Crawler.BreadthFirst` | crawler.py:9-47 | Iterations process entries in non-decreasing depth: breadth-first order. |
| `Crawler.EntryInFrontier` | crawler.py:9-16 | Iteration `k` pops the `k`-th entry ever queued: the queue is FIFO. |
| `Crawler.FrontierPrefix` | crawler.py:15-47 | The queue's history and the visited set only grow. After any prefix of a run, the queued entries are a prefix of those after the whole run, and the visited set is a subset. |
| `Crawler.Closure` | crawler.py:15-47 | A run that has emptied its queue is closed, even if the budget ran out at the same moment. Every followed href of a crawled page below the depth cap leads to a visited page or to one that is not served as HTML. |
| `Crawler.SeedCrawled` | crawler.py:9-28 | In every finished run with a budget of at least one page and a depth cap of at least 0, a seed served as HTML is visited. This includes runs that stop on the budget. |
| `Crawler.RunUnique` | crawler.py:7-52 | The crawl is deterministic given the oracle: two finished runs of one configuration are identical. |

## Left out

- The CSV reader (`load_crawl_csv`), the JSON writer and reader, and the command-line loops of all three programs are left out because they are I/O. The indexer receives the crawl results as a sequence of `(url, page)` items with distinct URLs, and the query engine receives the index and metadata as values.
- A CSV field that is present but `None` (a short row) is not modelled. A page field is a string, and a missing field is the empty string, which behaves the same under `filter(None, ...)` and `.get(..., "")`.
- The stopword list and the Porter stemmer come from NLTK. They are the parameter `Normaliser`, so the proofs hold for any stopword set and any stemmer function.
- `str.lower()` is modelled on ASCII only. The few non-ASCII characters whose Unicode lower case is an ASCII letter are not modelled: the Kelvin sign lower-cases to `k`, and dotted capital I lower-cases to `i` plus a combining mark. For such a character the model blanks it out where Python would keep a letter.
- Whitespace is Python's `str.isspace` set. The model assumes `re`'s `\s` matches the same set on `str`.
- `requests.get`, its headers and timeout, BeautifulSoup's parsing and the CSS selectors are all one oracle, `fetch`. It is a deterministic function from URL to response, so two fetches of one URL agree. A missing Content-Type header is the empty string.
- `urljoin` is the parameter `join`, with no properties assumed.
- Crawler.Crawl: `join` is total, so `Crawl` always returns a finished run. In Python, `urljoin` and `urldefrag` raise `ValueError` on a URL whose network location has an unmatched bracket, such as the href `http://[::1`. Lines 43-44 of `crawler.py` run outside the `try`, so such an href ends `crawl` with that exception. The model does not cover that exit.
- `urldefrag` is modelled as "keep everything before the first `#`". The re-serialisation through `urlunparse`, which can normalise a URL in other small ways, is not modelled.
- The `print` of each crawled URL and the `time.sleep(0.2)` have no effect on the result and are left out. The sleep runs after a crawled page only, because the skip, failure and non-HTML branches `continue` before it. The trace that `Crawl` returns has one event per loop iteration. The print reports only the events whose outcome is `Crawled`.
- Integer widths do not arise: Python integers are unbounded, and so are Dafny's.
- The module-level crawl of Wikipedia at the end of `crawler.py` is an example invocation, not part of `crawl`.

=== FILE: crawler.dfy ===
/**
  The breadth-first crawl loop of crawler.py. The network and the HTML
  parser are replaced by an oracle `fetch` that maps a URL to a failure or
  to a Content-Type header and the hrefs of the links inside the page's
  content region; `urljoin` is the parameter `join`.

  The loop is modelled twice: `Crawl` is the imperative loop, and `Run` is
  a declarative account of its trace, one `Event` per loop iteration, in
  which every iteration is determined by the iterations before it. `Crawl`
  is proved to produce a finished run, and the properties of crawling are
  lemmas about runs.
 */
module Crawler {
  import opened Seqs

  datatype Entry = Entry(url: string, depth: nat)

  /** What the HTTP request yields: an exception, or a Content-Type header ("" when absent) and the content region's hrefs. */
  datatype Response = Failed | Fetched(contentType: string, hrefs: seq<string>)

  /**
    The arguments of `crawl` together with the oracles standing for the
    network and `urljoin`, and the href prefixes the link loop drops
    (`SkippedPrefixes` in `crawl` itself; kept as a field so that the
    properties of runs hold for any such list).
   */
  datatype Config = Config(
    seed: string,
    maxPages: int,
    maxDepth: int,
    fetch: string -> Response,
    join: (string, string) -> string,
    skip: seq<string>)

  /** How one iteration of the loop ended. */
  datatype Outcome =
    | AlreadyVisited
    | TooDeep
    | FetchFailed
    | NotHtml
    | Crawled(links: seq<Entry>)

  datatype Event = Event(entry: Entry, outcome: Outcome)

  // ---------------------------------------------------------------------------
  // String helpers
  // ---------------------------------------------------------------------------

  predicate StartsWith(s: string, prefix: string) {
    prefix <= s
  }

  /** Python's `p in s` on strings, searched from the left. */
  predicate Contains(s: string, p: string)
    decreases |s|
  {
    StartsWith(s, p) || (s != [] && Contains(s[1..], p))
  }

  /** `p` occurs in `s` starting at position `i`. */
  predicate OccursAt(s: string, p: string, i: int) {
    0 <= i <= |s| && StartsWith(s[i..], p)
  }

  /** The search finds `p` exactly when `p` occurs at some position of `s`. */
  lemma {:induction false} ContainsSpec(s: string, p: string)
    ensures Contains(s, p) <==> exists i | 0 <= i <= |s| :: OccursAt(s, p, i)
    decreases |s|
  {
    assert s[0..] == s;
    if StartsWith(s, p) {
      assert OccursAt(s, p, 0);
    } else if s != [] {
      ContainsSpec(s[1..], p);
      forall i | 0 < i <= |s| ensures OccursAt(s, p, i) <==> OccursAt(s[1..], p, i - 1) {
        assert s[1..][i - 1..] == s[i..];
      }
      if Contains(s[1..], p) {
        var j :| 0 <= j <= |s[1..]| && OccursAt(s[1..], p, j);
        assert OccursAt(s, p, j + 1);
      }
    }
  }

  predicate IsHtml(r: Response) {
    r.Fetched? && Contains(r.contentType, "text/html")
  }

  /** `urldefrag(u)[0]`: everything before the first '#'. */
  function Defrag(u: string): string {
    if u == [] || u[0] == '#' then []
    else [u[0]] + Defrag(u[1..])
  }

  /**
    The defragmented URL is the longest prefix without a '#': it stops at
    the first '#' or at the end, and a URL without '#' is left unchanged.
   */
  lemma {:induction false} DefragSpec(u: string)
    ensures Defrag(u) <= u
    ensures '#' !in Defrag(u)
    ensures |Defrag(u)| < |u| ==> u[|Defrag(u)|] == '#'
    ensures '#' !in u <==> Defrag(u) == u
    decreases |u|
  {
    if u != [] && u[0] != '#' {
      DefragSpec(u[1..]);
      assert u == [u[0]] + u[1..];
    }
  }

  /** The hrefs `crawl` drops before resolution when they start with one of these. */
  const SkippedPrefixes: seq<string> := ["#", "/wiki/Special:", "/wiki/File:", "/wiki/Help:"]

  /** `href` starts with one of the `skip` prefixes. */
  predicate Skipped(skip: seq<string>, href: string) {
    exists i | 0 <= i < |skip| :: StartsWith(href, skip[i])
  }

  /** The links a response offers; none when the request failed. */
  function HrefsOf(r: Response): seq<string> {
    if r.Fetched? then r.hrefs else []
  }

  function Resolve(join: (string, string) -> string, page: string, href: string): string {
    Defrag(join(page, href))
  }

  /** `href` leads from `page` to an absolute http(s) URL worth queueing. */
  predicate Follows(join: (string, string) -> string, skip: seq<string>, page: string, href: string) {
    !Skipped(skip, href) && StartsWith(Resolve(join, page, href), "http")
  }

  // ---------------------------------------------------------------------------
  // One iteration
  // ---------------------------------------------------------------------------

  /**
    The entries the href loop appends to the queue: the resolved URLs of the
    followed hrefs, in href order, that are not yet visited, all at `depth`.
   */
  function Discover(join: (string, string) -> string, skip: seq<string>, page: string, depth: nat,
                    hrefs: seq<string>, visited: set<string>): (links: seq<Entry>)
    ensures |hrefs| == 1 ==> links == if Follows(join, skip, page, hrefs[0]) && Resolve(join, page, hrefs[0]) !in visited
                                      then [Entry(Resolve(join, page, hrefs[0]), depth)] else []
  {
    if hrefs == [] then []
    else
      var u := Resolve(join, page, hrefs[|hrefs| - 1]);
      Discover(join, skip, page, depth, hrefs[..|hrefs| - 1], visited)
        + (if Follows(join, skip, page, hrefs[|hrefs| - 1]) && u !in visited then [Entry(u, depth)] else [])
  }

  /**
    The href loop treats each href on its own, in document order: the links
    of `a + b` are those of `a` followed by those of `b`. With the single-href
    case of `Discover`, each followed href to an unvisited URL queues exactly
    one link, in place, even when another href already led to the same URL.
   */
  lemma {:induction false} DiscoverAppend(join: (string, string) -> string, skip: seq<string>, page: string, depth: nat,
                                          a: seq<string>, b: seq<string>, visited: set<string>)
    ensures Discover(join, skip, page, depth, a + b, visited)
         == Discover(join, skip, page, depth, a, visited) + Discover(join, skip, page, depth, b, visited)
    decreases |b|
  {
    if b == [] {
      assert a + b == a;
    } else {
      var b0 := b[..|b| - 1];
      DiscoverAppend(join, skip, page, depth, a, b0, visited);
      assert (a + b)[..|a + b| - 1] == a + b0;
      assert (a + b)[|a + b| - 1] == b[|b| - 1];
    }
  }

  /**
    A link is discovered exactly when some href is followed to an unvisited
    URL; the link carries that URL, defragmented, at the given depth.
   */
  lemma {:induction false} DiscoverLinks(join: (string, string) -> string, skip: seq<string>, page: string, depth: nat,
                                         hrefs: seq<string>, visited: set<string>)
    ensures forall e | e in Discover(join, skip, page, depth, hrefs, visited) ::
      && e.depth == depth
      && e.url !in visited
      && '#' !in e.url
      && exists i | 0 <= i < |hrefs| :: Follows(join, skip, page, hrefs[i]) && e.url == Resolve(join, page, hrefs[i])
    ensures forall i | 0 <= i < |hrefs| ::
      Follows(join, skip, page, hrefs[i]) && Resolve(join, page, hrefs[i]) !in visited
      ==> Entry(Resolve(join, page, hrefs[i]), depth) in Discover(join, skip, page, depth, hrefs, visited)
    decreases |hrefs|
  {
    if hrefs != [] {
      var init := hrefs[..|hrefs| - 1];
      DiscoverLinks(join, skip, page, depth, init, visited);
      DefragSpec(join(page, hrefs[|hrefs| - 1]));
      assert forall i | 0 <= i < |init| :: init[i] == hrefs[i];
    }
  }

  /**
    One pass of the while loop for the dequeued entry `e`, given the URLs
    visited so far. Only an unvisited URL within the depth cap is fetched;
    only an HTML response marks it visited; links are gathered only below
    the depth cap, against the visited set that already holds `e.url`.
   */
  function Iterate(cfg: Config, visited: set<string>, e: Entry): Outcome {
    if e.url in visited then AlreadyVisited
    else if e.depth > cfg.maxDepth then TooDeep
    else match cfg.fetch(e.url)
      case Failed => FetchFailed
      case Fetched(contentType, hrefs) =>
        if !Contains(contentType, "text/html") then NotHtml
        else if e.depth < cfg.maxDepth then
          Crawled(Discover(cfg.join, cfg.skip, e.url, e.depth + 1, hrefs, visited + {e.url}))
        else Crawled([])
  }

  /**
    The outcome of an iteration by case: a visited URL is skipped before any
    fetch; an entry beyond the depth cap is skipped; an unvisited entry within
    the cap is crawled exactly when its response is HTML; a crawled entry's
    links sit one level deeper and are neither visited nor the page itself.
   */
  lemma IterateCases(cfg: Config, visited: set<string>, e: Entry)
    ensures var o := Iterate(cfg, visited, e);
      && (o.AlreadyVisited? <==> e.url in visited)
      && (o.TooDeep? <==> e.url !in visited && e.depth > cfg.maxDepth)
      && (o.Crawled? <==> e.url !in visited && e.depth <= cfg.maxDepth && IsHtml(cfg.fetch(e.url)))
      && (o.Crawled? && e.depth >= cfg.maxDepth ==> o.links == [])
      && (o.Crawled? ==> forall l | l in o.links :: l.depth == e.depth + 1 && l.url !in visited && l.url != e.url)
  {
    if e.url !in visited && e.depth < cfg.maxDepth && IsHtml(cfg.fetch(e.url)) {
      DiscoverLinks(cfg.join, cfg.skip, e.url, e.depth + 1, cfg.fetch(e.url).hrefs, visited + {e.url});
    }
  }

  // ---------------------------------------------------------------------------
  // Runs
  // ---------------------------------------------------------------------------

  function Links(o: Outcome): seq<Entry> {
    if o.Crawled? then o.links else []
  }

  /** The URLs marked visited by the events of `trace`. */
  function Visited(trace: seq<Event>): set<string> {
    if trace == [] then {}
    else
      var last := trace[|trace| - 1];
      Visited(trace[..|trace| - 1]) + (if last.outcome.Crawled? then {last.entry.url} else {})
  }

  /** Every entry appended to the queue by the events of `trace`, in order. */
  function AllLinks(trace: seq<Event>): seq<Entry> {
    if trace == [] then []
    else AllLinks(trace[..|trace| - 1]) + Links(trace[|trace| - 1].outcome)
  }

  /**
    Every entry the queue has ever held, in FIFO order: the seed at depth 0,
    then the appended links. After `trace`, the queue is this sequence with
    its first `|trace|` entries popped.
   */
  function Frontier(seed: string, trace: seq<Event>): seq<Entry> {
    [Entry(seed, 0)] + AllLinks(trace)
  }

  /** The event that follows `past`: the loop guard held and the next queue entry was processed. */
  predicate Allowed(cfg: Config, past: seq<Event>, ev: Event) {
    var f := Frontier(cfg.seed, past);
    && |Visited(past)| < cfg.maxPages
    && |past| < |f|
    && ev == Event(f[|past|], Iterate(cfg, Visited(past), f[|past|]))
  }

  /** Every event of `trace` is the one its predecessors allow. */
  predicate Run(cfg: Config, trace: seq<Event>) {
    trace == [] || (Run(cfg, trace[..|trace| - 1]) && Allowed(cfg, trace[..|trace| - 1], trace[|trace| - 1]))
  }

  /** The loop guard fails: the page budget is spent or the queue is empty. */
  predicate Finished(cfg: Config, trace: seq<Event>) {
    |Visited(trace)| >= cfg.maxPages || |trace| == |Frontier(cfg.seed, trace)|
  }

  lemma FrontierSnoc(seed: string, trace: seq<Event>, ev: Event)
    ensures Frontier(seed, trace + [ev]) == Frontier(seed, trace) + Links(ev.outcome)
    ensures Visited(trace + [ev]) == Visited(trace) + (if ev.outcome.Crawled? then {ev.entry.url} else {})
  {
    assert (trace + [ev])[..|trace|] == trace;
  }

  lemma RunSnoc(cfg: Config, trace: seq<Event>, ev: Event)
    requires Run(cfg, trace) && Allowed(cfg, trace, ev)
    ensures Run(cfg, trace + [ev])
  {
    assert (trace + [ev])[..|trace|] == trace;
  }

  lemma {:induction false} RunPrefix(cfg: Config, trace: seq<Event>, n: nat)
    requires Run(cfg, trace) && n <= |trace|
    ensures Run(cfg, trace[..n])
    decreases |trace|
  {
    if n < |trace| {
      var init := trace[..|trace| - 1];
      RunPrefix(cfg, init, n);
      assert init[..n] == trace[..n];
    } else {
      assert trace[..n] == trace;
    }
  }

  /** The event at position `k` of a run is the one its predecessors allow. */
  lemma {:induction false} RunAt(cfg: Config, trace: seq<Event>, k: nat)
    requires Run(cfg, trace) && k < |trace|
    ensures Allowed(cfg, trace[..k], trace[k])
    decreases |trace|
  {
    var n := |trace| - 1;
    if k < n {
      RunAt(cfg, trace[..n], k);
      PrefixOfPrefix(trace, n, k);
    }
  }

  /** The queue only grows at its tail, so earlier frontiers are prefixes of later ones. */
  lemma {:induction false} FrontierPrefix(seed: string, trace: seq<Event>, n: nat)
    requires n <= |trace|
    ensures Frontier(seed, trace[..n]) <= Frontier(seed, trace)
    ensures Visited(trace[..n]) <= Visited(trace)
    decreases |trace| - n
  {
    if n < |trace| {
      var init := trace[..|trace| - 1];
      assert trace[..n] == init[..n];
      FrontierPrefix(seed, init, n);
      FrontierSnoc(seed, init, trace[|trace| - 1]);
      assert trace == init + [trace[|trace| - 1]];
    } else {
      assert trace[..n] == trace;
    }
  }

  // ---------------------------------------------------------------------------
  // The loop
  // ---------------------------------------------------------------------------

  /** The configuration `crawl(seed, maxPages, maxDepth)` runs under. */
  function Site(seed: string, maxPages: int, maxDepth: int,
                fetch: string -> Response, join: (string, string) -> string): Config
  {
    Config(seed, maxPages, maxDepth, fetch, join, SkippedPrefixes)
  }

  /**
    crawler.py `crawl`. Returns the visited set and the trace of loop
    iterations; the trace is a finished run, so the loop stopped only when
    the budget was spent or the queue ran dry.
   */
  method Crawl(seed: string, maxPages: int, maxDepth: int,
               fetch: string -> Response, join: (string, string) -> string)
    returns (visited: set<string>, trace: seq<Event>)
    ensures Run(Site(seed, maxPages, maxDepth, fetch, join), trace)
    ensures Finished(Site(seed, maxPages, maxDepth, fetch, join), trace)
    ensures visited == Visited(trace)
    ensures |visited| <= if maxPages < 0 then 0 else maxPages
    ensures forall u | u in visited :: IsHtml(fetch(u))
  {
    visited, trace := CrawlLoop(Site(seed, maxPages, maxDepth, fetch, join));
  }

  /** The while loop of `crawl` under any configuration. */
  method CrawlLoop(cfg: Config) returns (visited: set<string>, trace: seq<Event>)
    ensures Run(cfg, trace) && Finished(cfg, trace)
    ensures visited == Visited(trace)
    ensures |visited| <= if cfg.maxPages < 0 then 0 else cfg.maxPages
    ensures forall u | u in visited :: IsHtml(cfg.fetch(u))
  {
    visited := {};
    trace := [];
    var queue := [Entry(cfg.seed, 0)];
    while queue != [] && |visited| < cfg.maxPages
      invariant Run(cfg, trace)
      invariant visited == Visited(trace)
      invariant |trace| <= |Frontier(cfg.seed, trace)|
      invariant queue == Frontier(cfg.seed, trace)[|trace|..]
      decreases cfg.maxPages - |visited|, |queue|
    {
      var e := queue[0];
      var outcome := Visit(cfg, visited, e);
      var ev := Event(e, outcome);
      CrawlStep(cfg, trace, queue, ev);
      trace := trace + [ev];
      queue := queue[1..] + Links(outcome);
      if outcome.Crawled? {
        visited := visited + {e.url};
      }
    }
    CrawlBudget(cfg, trace);
    CrawledEntries(cfg, trace);
  }

  /** The body of the while loop after the pop: the checks, the fetch and the href loop. */
  method Visit(cfg: Config, visited: set<string>, e: Entry) returns (outcome: Outcome)
    ensures outcome == Iterate(cfg, visited, e)
  {
    if e.url in visited {
      outcome := AlreadyVisited;
    } else if e.depth > cfg.maxDepth {
      outcome := TooDeep;
    } else {
      var response := cfg.fetch(e.url);
      if response.Failed? {
        outcome := FetchFailed;
      } else if !Contains(response.contentType, "text/html") {
        outcome := NotHtml;
      } else {
        var links: seq<Entry> := [];
        if e.depth < cfg.maxDepth {
          links := FollowLinks(cfg.join, cfg.skip, e.url, e.depth + 1, response.hrefs, visited + {e.url});
        }
        outcome := Crawled(links);
      }
    }
  }

  /** The href loop of `crawl`, appending each followed unvisited link at `depth`. */
  method FollowLinks(join: (string, string) -> string, skip: seq<string>, page: string, depth: nat,
                     hrefs: seq<string>, visited: set<string>) returns (links: seq<Entry>)
    ensures links == Discover(join, skip, page, depth, hrefs, visited)
  {
    links := [];
    var i := 0;
    while i < |hrefs|
      invariant 0 <= i <= |hrefs|
      invariant links == Discover(join, skip, page, depth, hrefs[..i], visited)
    {
      var href := hrefs[i];
      assert hrefs[..i + 1][..i] == hrefs[..i];
      if !Skipped(skip, href) {
        var newUrl := Defrag(join(page, href));
        if StartsWith(newUrl, "http") && newUrl !in visited {
          links := links + [Entry(newUrl, depth)];
        }
      }
      i := i + 1;
    }
    assert hrefs[..i] == hrefs;
  }

  /**
    One loop iteration extends the run, keeps the queue equal to the
    unpopped frontier and the visited set equal to the run's, and shrinks
    the queue unless it marks a new URL visited.
   */
  lemma CrawlStep(cfg: Config, trace: seq<Event>, queue: seq<Entry>, ev: Event)
    requires Run(cfg, trace)
    requires |Visited(trace)| < cfg.maxPages
    requires |trace| <= |Frontier(cfg.seed, trace)|
    requires queue == Frontier(cfg.seed, trace)[|trace|..] && queue != []
    requires ev.entry == queue[0]
    requires ev.outcome == Iterate(cfg, Visited(trace), ev.entry)
    ensures Run(cfg, trace + [ev])
    ensures Visited(trace + [ev]) == Visited(trace) + (if ev.outcome.Crawled? then {ev.entry.url} else {})
    ensures |trace + [ev]| <= |Frontier(cfg.seed, trace + [ev])|
    ensures queue[1..] + Links(ev.outcome) == Frontier(cfg.seed, trace + [ev])[|trace + [ev]|..]
    ensures ev.outcome.Crawled? ==> ev.entry.url !in Visited(trace)
    ensures !ev.outcome.Crawled? ==> Links(ev.outcome) == []
  {
    QueuePop(Frontier(cfg.seed, trace), |trace|, queue, Links(ev.outcome));
    assert Allowed(cfg, trace, ev);
    RunSnoc(cfg, trace, ev);
    FrontierSnoc(cfg.seed, trace, ev);
  }

  /** Popping the head of the unpopped part of `f` and appending `links`. */
  lemma QueuePop(f: seq<Entry>, n: nat, queue: seq<Entry>, links: seq<Entry>)
    requires n <= |f| && queue == f[n..] && queue != []
    ensures n < |f| && queue[0] == f[n]
    ensures queue[1..] + links == (f + links)[n + 1..]
  {
  }

  // ---------------------------------------------------------------------------
  // Properties of runs
  // ---------------------------------------------------------------------------

  /** The page budget holds: the guard is checked before each iteration and each iteration visits at most one URL. */
  lemma {:induction false} CrawlBudget(cfg: Config, trace: seq<Event>)
    requires Run(cfg, trace)
    ensures |Visited(trace)| <= if cfg.maxPages < 0 then 0 else cfg.maxPages
    decreases |trace|
  {
    if trace != [] {
      var init := trace[..|trace| - 1];
      RunPrefix(cfg, trace, |trace| - 1);
      CrawlBudget(cfg, init);
      assert Allowed(cfg, init, trace[|trace| - 1]);
    }
  }

  /**
    A URL is visited only through an iteration that dequeued it within the
    depth cap and received HTML for it.
   */
  lemma CrawledEntries(cfg: Config, trace: seq<Event>)
    requires Run(cfg, trace)
    ensures forall u | u in Visited(trace) ::
      && IsHtml(cfg.fetch(u))
      && exists k | 0 <= k < |trace| ::
           && trace[k].entry.url == u
           && trace[k].outcome.Crawled?
           && trace[k].entry.depth <= cfg.maxDepth
  {
    forall u | u in Visited(trace)
      ensures IsHtml(cfg.fetch(u))
      ensures exists k | 0 <= k < |trace| ::
           && trace[k].entry.url == u
           && trace[k].outcome.Crawled?
           && trace[k].entry.depth <= cfg.maxDepth
    {
      var k := VisitedSource(cfg, trace, u);
    }
  }

  /** The iteration that marked `u` visited. */
  lemma {:induction false} VisitedSource(cfg: Config, trace: seq<Event>, u: string) returns (k: nat)
    requires Run(cfg, trace) && u in Visited(trace)
    ensures k < |trace| && trace[k].entry.url == u && trace[k].outcome.Crawled?
    ensures trace[k].entry.depth <= cfg.maxDepth && IsHtml(cfg.fetch(u))
    decreases |trace|
  {
    var n := |trace| - 1;
    var init := trace[..n];
    if u in Visited(init) {
      k := VisitedSource(cfg, init, u);
      PrefixOfPrefix(trace, n, k);
    } else {
      k := n;
      IterateCases(cfg, Visited(init), trace[n].entry);
    }
  }

  /** A URL already visited is never fetched again, so each URL is crawled at most once. */
  lemma CrawledOnce(cfg: Config, trace: seq<Event>, i: nat, j: nat)
    requires Run(cfg, trace) && i < j < |trace|
    requires trace[i].outcome.Crawled?
    ensures trace[i].entry.url in Visited(trace[..j])
    ensures !trace[j].outcome.AlreadyVisited? ==> trace[j].entry.url != trace[i].entry.url
  {
    RunAt(cfg, trace, j);
    FrontierPrefix(cfg.seed, trace[..j], i + 1);
    PrefixOfPrefix(trace, j, i);
    FrontierSnoc(cfg.seed, trace[..i], trace[i]);
  }

  /**
    `l` was queued by the crawl of `parent` through the href `h`: the parent
    page is HTML and lies below the depth cap, `h` is one of its hrefs, is
    not skipped and resolves to `l.url`, and `l` sits one level deeper.
   */
  predicate FoundVia(cfg: Config, parent: Event, h: string, l: Entry) {
    && parent.outcome.Crawled?
    && l in parent.outcome.links
    && parent.entry.depth < cfg.maxDepth
    && l.depth == parent.entry.depth + 1
    && h in HrefsOf(cfg.fetch(parent.entry.url))
    && Follows(cfg.join, cfg.skip, parent.entry.url, h)
    && l.url == Resolve(cfg.join, parent.entry.url, h)
  }

  /**
    Every queued link was found on a crawled page below the depth cap,
    starts with "http", has no fragment, and was not visited when queued.
   */
  lemma LinkProvenance(cfg: Config, trace: seq<Event>, l: Entry)
    requires Run(cfg, trace) && l in AllLinks(trace)
    ensures '#' !in l.url && StartsWith(l.url, "http")
    ensures exists k, h | 0 <= k < |trace| :: FoundVia(cfg, trace[k], h, l) && l.url !in Visited(trace[..k + 1])
  {
    var k, h := LinkSource(cfg, trace, l);
  }

  /** The iteration and the href that queued `l`, found by walking the trace back from its end. */
  lemma {:induction false} LinkSource(cfg: Config, trace: seq<Event>, l: Entry) returns (k: nat, h: string)
    requires Run(cfg, trace) && l in AllLinks(trace)
    ensures k < |trace| && FoundVia(cfg, trace[k], h, l) && l.url !in Visited(trace[..k + 1])
    ensures '#' !in l.url && StartsWith(l.url, "http")
    decreases |trace|
  {
    var n := |trace| - 1;
    var init := trace[..n];
    var last := trace[n];
    assert Run(cfg, init) && Allowed(cfg, init, last);
    assert AllLinks(trace) == AllLinks(init) + Links(last.outcome);
    if l in AllLinks(init) {
      k, h := LinkSource(cfg, init, l);
      PrefixOfPrefix(trace, n, k);
    } else {
      k := n;
      h := LastLinkProvenance(cfg, init, last, l);
      PrefixOfPrefix(trace, n + 1, n);
    }
  }

  lemma LastLinkProvenance(cfg: Config, past: seq<Event>, ev: Event, l: Entry) returns (h: string)
    requires Allowed(cfg, past, ev)
    requires l in Links(ev.outcome)
    ensures '#' !in l.url && StartsWith(l.url, "http")
    ensures FoundVia(cfg, ev, h, l)
    ensures l.url !in Visited(past + [ev])
  {
    FrontierSnoc(cfg.seed, past, ev);
    h := IterateLinks(cfg, Visited(past), ev.entry, l);
  }

  /** What a single iteration promises about each link it queues, and the href behind it. */
  lemma IterateLinks(cfg: Config, visited: set<string>, e: Entry, l: Entry) returns (h: string)
    requires l in Links(Iterate(cfg, visited, e))
    ensures Iterate(cfg, visited, e).Crawled?
    ensures '#' !in l.url && StartsWith(l.url, "http")
    ensures l.url !in visited && l.url != e.url
    ensures e.depth < cfg.maxDepth && l.depth == e.depth + 1
    ensures h in HrefsOf(cfg.fetch(e.url))
    ensures Follows(cfg.join, cfg.skip, e.url, h) && l.url == Resolve(cfg.join, e.url, h)
  {
    var hrefs := HrefsOf(cfg.fetch(e.url));
    DiscoverLinks(cfg.join, cfg.skip, e.url, e.depth + 1, hrefs, visited + {e.url});
    var i :| 0 <= i < |hrefs| && Follows(cfg.join, cfg.skip, e.url, hrefs[i]) && l.url == Resolve(cfg.join, e.url, hrefs[i]);
    h := hrefs[i];
  }

  /** An href with a skipped prefix contributes nothing: the links are those of the other hrefs. */
  lemma {:induction false} DiscoverIgnoresSkipped(join: (string, string) -> string, skip: seq<string>, page: string, depth: nat,
                                                  a: seq<string>, href: string, b: seq<string>, visited: set<string>)
    requires Skipped(skip, href)
    ensures Discover(join, skip, page, depth, a + [href] + b, visited) == Discover(join, skip, page, depth, a + b, visited)
    decreases |b|
  {
    if b == [] {
      assert (a + [href] + b)[..|a|] == a;
      assert a + b == a;
    } else {
      var b0 := b[..|b| - 1];
      DiscoverIgnoresSkipped(join, skip, page, depth, a, href, b0, visited);
      assert (a + [href] + b)[..|a + [href] + b| - 1] == a + [href] + b0;
      assert (a + b)[..|a + b| - 1] == a + b0;
    }
  }

  // ---------------------------------------------------------------------------
  // Breadth-first order
  // ---------------------------------------------------------------------------

  predicate DepthSorted(f: seq<Entry>) {
    forall i, j | 0 <= i < j < |f| :: f[i].depth <= f[j].depth
  }

  /** The queue is sorted by depth and never spans more than two levels around its head. */
  predicate Layered(f: seq<Entry>, n: nat) {
    && DepthSorted(f)
    && (n < |f| ==> forall j | 0 <= j < |f| :: f[j].depth <= f[n].depth + 1)
  }

  lemma {:induction false} FrontierLayered(cfg: Config, trace: seq<Event>)
    requires Run(cfg, trace)
    ensures Layered(Frontier(cfg.seed, trace), |trace|)
    decreases |trace|
  {
    if trace != [] {
      var n := |trace| - 1;
      var init := trace[..n];
      FrontierLayered(cfg, init);
      assert Allowed(cfg, init, trace[n]);
      IterateCases(cfg, Visited(init), trace[n].entry);
      FrontierSnoc(cfg.seed, init, trace[n]);
      assert init + [trace[n]] == trace;
      LayeredStep(Frontier(cfg.seed, init), n, Links(trace[n].outcome));
    }
  }

  lemma LayeredStep(f: seq<Entry>, n: nat, links: seq<Entry>)
    requires Layered(f, n) && n < |f|
    requires forall l | l in links :: l.depth == f[n].depth + 1
    ensures Layered(f + links, n + 1)
  {
    var g := f + links;
    forall i, j | 0 <= i < j < |g| ensures g[i].depth <= g[j].depth {
      if j >= |f| {
        assert g[j] in links;
        if i >= |f| {
          assert g[i] in links;
        }
      }
    }
    if n + 1 < |g| {
      assert g[n + 1].depth >= g[n].depth;
      forall j | 0 <= j < |g| ensures g[j].depth <= g[n + 1].depth + 1 {
        if j >= |f| {
          assert g[j] in links;
        }
      }
    }
  }

  /** Pages are crawled in breadth-first order: depths never decrease along the trace. */
  lemma BreadthFirst(cfg: Config, trace: seq<Event>, i: nat, j: nat)
    requires Run(cfg, trace) && i <= j < |trace|
    ensures trace[i].entry.depth <= trace[j].entry.depth
  {
    FrontierLayered(cfg, trace);
    EntryInFrontier(cfg, trace, i);
    EntryInFrontier(cfg, trace, j);
  }

  /** The `k`-th iteration dequeues the `k`-th entry ever queued. */
  lemma EntryInFrontier(cfg: Config, trace: seq<Event>, k: nat)
    requires Run(cfg, trace) && k < |trace|
    ensures k < |Frontier(cfg.seed, trace)|
    ensures trace[k].entry == Frontier(cfg.seed, trace)[k]
  {
    RunAt(cfg, trace, k);
    FrontierPrefix(cfg.seed, trace, k);
  }

  // ---------------------------------------------------------------------------
  // Exhaustive crawl and determinism
  // ---------------------------------------------------------------------------

  /**
    A run that has emptied its queue, whether or not the budget ran out at
    the same moment, is closed: every followable link of a page crawled
    below the depth cap is visited, or its fetch fails or is not HTML.
   */
  lemma Closure(cfg: Config, trace: seq<Event>, k: nat, href: string)
    requires Run(cfg, trace) && |trace| == |Frontier(cfg.seed, trace)|
    requires k < |trace| && trace[k].outcome.Crawled? && trace[k].entry.depth < cfg.maxDepth
    requires href in HrefsOf(cfg.fetch(trace[k].entry.url)) && Follows(cfg.join, cfg.skip, trace[k].entry.url, href)
    ensures var u := Resolve(cfg.join, trace[k].entry.url, href);
      u in Visited(trace) || !IsHtml(cfg.fetch(u))
  {
    QueuedOrVisited(cfg, trace, k, href);
    QueuedThenSettled(cfg, trace, k + 1, Entry(Resolve(cfg.join, trace[k].entry.url, href), trace[k].entry.depth + 1));
  }

  /** Once the queue is exhausted, whatever was visited or queued early on ends visited or not HTML. */
  lemma QueuedThenSettled(cfg: Config, trace: seq<Event>, n: nat, l: Entry)
    requires Run(cfg, trace) && |trace| == |Frontier(cfg.seed, trace)|
    requires n <= |trace| && l.depth <= cfg.maxDepth
    requires l.url in Visited(trace[..n]) || l in AllLinks(trace[..n])
    ensures l.url in Visited(trace) || !IsHtml(cfg.fetch(l.url))
  {
    FrontierPrefix(cfg.seed, trace, n);
    if l.url !in Visited(trace[..n]) {
      StillQueued(cfg.seed, trace, n, l);
      Processed(cfg, trace, l);
    }
  }

  /** An entry once queued stays in the frontier. */
  lemma StillQueued(seed: string, trace: seq<Event>, n: nat, l: Entry)
    requires n <= |trace| && l in AllLinks(trace[..n])
    ensures l in Frontier(seed, trace)
  {
    FrontierPrefix(seed, trace, n);
    assert l in Frontier(seed, trace[..n]);
  }

  /** A followed href of a crawled page is already visited or is queued one level deeper. */
  lemma QueuedOrVisited(cfg: Config, trace: seq<Event>, k: nat, href: string)
    requires Run(cfg, trace)
    requires k < |trace| && trace[k].outcome.Crawled? && trace[k].entry.depth < cfg.maxDepth
    requires href in HrefsOf(cfg.fetch(trace[k].entry.url)) && Follows(cfg.join, cfg.skip, trace[k].entry.url, href)
    ensures var u := Resolve(cfg.join, trace[k].entry.url, href);
      u in Visited(trace[..k + 1]) || Entry(u, trace[k].entry.depth + 1) in AllLinks(trace[..k + 1])
  {
    RunAt(cfg, trace, k);
    PrefixOfPrefix(trace, k + 1, k);
    AllowedFollows(cfg, trace[..k], trace[k], href);
  }

  lemma AllowedFollows(cfg: Config, past: seq<Event>, ev: Event, href: string)
    requires Allowed(cfg, past, ev)
    requires ev.outcome.Crawled? && ev.entry.depth < cfg.maxDepth
    requires href in HrefsOf(cfg.fetch(ev.entry.url)) && Follows(cfg.join, cfg.skip, ev.entry.url, href)
    ensures var u := Resolve(cfg.join, ev.entry.url, href);
      u in Visited(past + [ev]) || Entry(u, ev.entry.depth + 1) in AllLinks(past + [ev])
  {
    IterateFollows(cfg, Visited(past), ev.entry, href);
    FrontierSnoc(cfg.seed, past, ev);
  }

  /** A crawled page below the depth cap queues every followed href that is not yet visited. */
  lemma IterateFollows(cfg: Config, visited: set<string>, e: Entry, href: string)
    requires Iterate(cfg, visited, e).Crawled? && e.depth < cfg.maxDepth
    requires href in HrefsOf(cfg.fetch(e.url)) && Follows(cfg.join, cfg.skip, e.url, href)
    ensures var u := Resolve(cfg.join, e.url, href);
      u in visited + {e.url} || Entry(u, e.depth + 1) in Links(Iterate(cfg, visited, e))
  {
    var hrefs := HrefsOf(cfg.fetch(e.url));
    DiscoverLinks(cfg.join, cfg.skip, e.url, e.depth + 1, hrefs, visited + {e.url});
    var i :| 0 <= i < |hrefs| && hrefs[i] == href;
  }

  /** Once the queue is exhausted, every queued entry within the depth cap was visited or not HTML. */
  lemma Processed(cfg: Config, trace: seq<Event>, x: Entry)
    requires Run(cfg, trace) && |trace| == |Frontier(cfg.seed, trace)|
    requires x in Frontier(cfg.seed, trace) && x.depth <= cfg.maxDepth
    ensures x.url in Visited(trace) || !IsHtml(cfg.fetch(x.url))
  {
    var f := Frontier(cfg.seed, trace);
    var j :| 0 <= j < |f| && f[j] == x;
    EntryInFrontier(cfg, trace, j);
    RunAt(cfg, trace, j);
    IterateCases(cfg, Visited(trace[..j]), x);
    FrontierPrefix(cfg.seed, trace, j);
    FrontierPrefix(cfg.seed, trace, j + 1);
    PrefixOfPrefix(trace, j + 1, j);
    FrontierSnoc(cfg.seed, trace[..j], trace[j]);
  }

  /** With a budget of at least one page, a seed served as HTML is always the first page visited. */
  lemma SeedCrawled(cfg: Config, trace: seq<Event>)
    requires Run(cfg, trace) && Finished(cfg, trace) && cfg.maxPages >= 1
    requires cfg.maxDepth >= 0 && IsHtml(cfg.fetch(cfg.seed))
    ensures cfg.seed in Visited(trace)
  {
    var seed := Entry(cfg.seed, 0);
    assert Frontier(cfg.seed, []) == [seed];
    assert trace != [];
    RunAt(cfg, trace, 0);
    assert trace[..0] == [];
    IterateCases(cfg, {}, seed);
    assert trace[..1] == [] + [trace[0]];
    FrontierSnoc(cfg.seed, [], trace[0]);
    FrontierPrefix(cfg.seed, trace, 1);
  }

  /** The crawl is a function of its configuration: two finished runs are the same run. */
  lemma {:induction false} RunUnique(cfg: Config, t1: seq<Event>, t2: seq<Event>)
    requires Run(cfg, t1) && Finished(cfg, t1)
    requires Run(cfg, t2) && Finished(cfg, t2)
    ensures t1 == t2
  {
    var m := if |t1| <= |t2| then |t1| else |t2|;
    SamePrefix(cfg, t1, t2, m);
    assert t1[..|t1|] == t1 && t2[..|t2|] == t2;
    if |t1| < |t2| {
      RunAt(cfg, t2, |t1|);
      assert false;
    } else if |t2| < |t1| {
      RunAt(cfg, t1, |t2|);
      assert false;
    } else {
      assert t1 == t1[..m] && t2 == t2[..m];
    }
  }

  lemma {:induction false} SamePrefix(cfg: Config, t1: seq<Event>, t2: seq<Event>, n: nat)
    requires Run(cfg, t1) && Run(cfg, t2) && n <= |t1| && n <= |t2|
    ensures t1[..n] == t2[..n]
    decreases n
  {
    if n > 0 {
      SamePrefix(cfg, t1, t2, n - 1);
      RunAt(cfg, t1, n - 1);
      RunAt(cfg, t2, n - 1);
      AllowedUnique(cfg, t1[..n - 1], t1[n - 1], t2[n - 1]);
      PrefixOfPrefix(t1, n, n - 1);
      PrefixOfPrefix(t2, n, n - 1);
    }
  }

  lemma AllowedUnique(cfg: Config, past: seq<Event>, e1: Event, e2: Event)
    requires Allowed(cfg, past, e1) && Allowed(cfg, past, e2)
    ensures e1 == e2
  {
  }
}

=== FILE: indexer.dfy ===
/**
  The inverted-index builder: every crawled page's title, description and
  content are joined, normalised and counted into `word -> url -> count`, and
  a metadata table keeps each page's title and a truncated description.

  The crawl results are a Python dict from URL to page; here they are the
  sequence of its `(url, page)` items in iteration order, whose URLs are
  therefore distinct (`DistinctKeys`).
 */
module Indexer {
  import opened Seqs
  import opened Text
  import opened Postings

  /** One crawled page. A missing field reads as the empty string. */
  datatype Page = Page(title: string, description: string, content: string)

  /** A JSON object of strings: one row of the metadata table. */
  type Fields = map<string, string>

  type Index = map<string, PostingList>

  type Metadata = map<string, Fields>

  datatype Built = Built(index: Index, metadata: Metadata)

  const DescriptionLimit: nat := 200

  predicate DistinctKeys(pages: seq<(string, Page)>) {
    forall i, j | 0 <= i < j < |pages| :: pages[i].0 != pages[j].0
  }

  /** The crawl results as a dict (a later item would overwrite an earlier one). */
  function PageMap(pages: seq<(string, Page)>): (m: map<string, Page>)
    ensures forall i | 0 <= i < |pages| :: pages[i].0 in m
    ensures forall u | u in m :: exists i | 0 <= i < |pages| :: pages[i].0 == u
  {
    if pages == [] then map[]
    else
      var init := pages[..|pages| - 1];
      var m0 := PageMap(init);
      assert forall i | 0 <= i < |init| :: pages[i] == init[i];
      m0[pages[|pages| - 1].0 := pages[|pages| - 1].1]
  }

  // ---------------------------------------------------------------------------
  // Per-page text and metadata
  // ---------------------------------------------------------------------------

  /** Python's `s[:n]`. */
  function Prefix(s: string, n: nat): (r: string)
    ensures |r| == if |s| < n then |s| else n
    ensures r == s[..|r|]
  {
    if |s| <= n then s else s[..n]
  }

  /** `" ".join(filter(None, parts))`. */
  function JoinNonEmpty(parts: seq<string>): string {
    if parts == [] then ""
    else
      var rest := JoinNonEmpty(parts[1..]);
      if parts[0] == [] then rest
      else if rest == [] then parts[0]
      else parts[0] + " " + rest
  }

  /** The tokens of each part, concatenated in order. */
  function TokensOfParts(nz: Normaliser, parts: seq<string>): seq<string> {
    if parts == [] then [] else Preprocess(nz, parts[0]) + TokensOfParts(nz, parts[1..])
  }

  /** Joining the non-empty fields with spaces tokenises each field on its own. */
  lemma {:induction false} PreprocessJoinNonEmpty(nz: Normaliser, parts: seq<string>)
    ensures Preprocess(nz, JoinNonEmpty(parts)) == TokensOfParts(nz, parts)
  {
    PreprocessEmpty(nz);
    if parts != [] {
      PreprocessJoinNonEmpty(nz, parts[1..]);
      var rest := JoinNonEmpty(parts[1..]);
      if parts[0] != [] && rest != [] {
        PreprocessJoin(nz, parts[0], rest);
      } else if parts[0] != [] {
        assert Preprocess(nz, rest) == [];
      }
    }
  }

  function PageText(p: Page): string {
    JoinNonEmpty([p.title, p.description, p.content])
  }

  function PageTokens(nz: Normaliser, p: Page): seq<string> {
    Preprocess(nz, PageText(p))
  }

  /** No word is fused across two fields: the page's tokens are its fields' tokens in order. */
  lemma PageTokensByField(nz: Normaliser, p: Page)
    ensures PageTokens(nz, p)
         == Preprocess(nz, p.title) + Preprocess(nz, p.description) + Preprocess(nz, p.content)
  {
    var parts := [p.title, p.description, p.content];
    PreprocessJoinNonEmpty(nz, parts);
    assert parts[1..] == [p.description, p.content];
    assert parts[1..][1..] == [p.content];
    assert parts[1..][1..][1..] == [];
    assert TokensOfParts(nz, [p.content]) == Preprocess(nz, p.content);
  }

  /** One row of `page_metadata`. */
  function MetaFields(p: Page): (f: Fields)
    ensures f.Keys == {"title", "description"}
    ensures f["title"] == p.title
    ensures |f["description"]| == if |p.description| < DescriptionLimit then |p.description| else DescriptionLimit
    ensures f["description"] == p.description[..|f["description"]|]
  {
    map["title" := p.title, "description" := Prefix(p.description, DescriptionLimit)]
  }

  function MetadataOf(pages: seq<(string, Page)>): (md: Metadata)
    ensures md.Keys == PageMap(pages).Keys
    ensures forall u | u in md :: md[u] == MetaFields(PageMap(pages)[u])
  {
    if pages == [] then map[]
    else
      var (u, p) := pages[|pages| - 1];
      var md0 := MetadataOf(pages[..|pages| - 1]);
      MetadataStep(md0, PageMap(pages[..|pages| - 1]), u, p, md0[u := MetaFields(p)], PageMap(pages));
      md0[u := MetaFields(p)]
  }

  /** Storing one more page's row keeps the table in step with the dict of pages. */
  lemma MetadataStep(md0: Metadata, m0: map<string, Page>, u: string, p: Page, md: Metadata, m: map<string, Page>)
    requires md0.Keys == m0.Keys
    requires forall v | v in md0 :: md0[v] == MetaFields(m0[v])
    requires md == md0[u := MetaFields(p)] && m == m0[u := p]
    ensures md.Keys == m.Keys
    ensures forall v | v in md :: md[v] == MetaFields(m[v])
  {
  }

  // ---------------------------------------------------------------------------
  // Counting
  // ---------------------------------------------------------------------------

  function Row(idx: Index, w: string): PostingList {
    if w in idx then idx[w] else []
  }

  /** `inverted_index[w][u]`, or 0 where the default dicts would have no entry. */
  function Count(idx: Index, w: string, u: string): int {
    Get(Row(idx, w), u)
  }

  predicate Present(idx: Index, w: string, u: string) {
    w in idx && Has(idx[w], u)
  }

  /** A row holds only positive counts, each under its own URL. */
  predicate ValidRow(row: PostingList) {
    && DistinctUrls(row)
    && forall i | 0 <= i < |row| :: row[i].count >= 1
  }

  /** Every row is non-empty, has distinct URLs and holds only positive counts. */
  predicate WellFormed(idx: Index) {
    forall w | w in idx :: idx[w] != [] && ValidRow(idx[w])
  }

  /** `inverted_index[word][url] += 1`. */
  function AddOccurrence(idx: Index, w: string, u: string): Index {
    idx[w := Bump(Row(idx, w), u, 1)]
  }

  lemma AddOccurrenceCount(idx: Index, t: string, u: string, w: string, v: string)
    ensures Count(AddOccurrence(idx, t, u), w, v) == Count(idx, w, v) + (if w == t && v == u then 1 else 0)
  {
  }

  lemma AddOccurrencePresent(idx: Index, t: string, u: string, w: string, v: string)
    ensures Present(AddOccurrence(idx, t, u), w, v) <==> Present(idx, w, v) || (w == t && v == u)
  {
    assert Urls([]) == [];
  }

  lemma AddOccurrenceWellFormed(idx: Index, t: string, u: string)
    requires WellFormed(idx)
    ensures WellFormed(AddOccurrence(idx, t, u))
  {
    var row := Row(idx, t);
    assert ValidRow(row);
    BumpValidRow(row, u);
  }

  /** Counting one more occurrence keeps a row positive and makes it non-empty. */
  lemma BumpValidRow(row: PostingList, u: string)
    requires ValidRow(row)
    ensures Bump(row, u, 1) != [] && ValidRow(Bump(row, u, 1))
  {
    var r := Bump(row, u, 1);
    assert Get(row, u) >= 0;
    assert u in Urls(r);
  }

  /** The inner loop over one page's tokens. */
  function AddTokens(idx: Index, u: string, tokens: seq<string>): Index {
    if tokens == [] then idx
    else AddOccurrence(AddTokens(idx, u, tokens[..|tokens| - 1]), tokens[|tokens| - 1], u)
  }

  /** Adding a page's tokens raises exactly its column, by each word's number of occurrences. */
  lemma {:induction false} AddTokensCount(idx: Index, u: string, tokens: seq<string>, w: string, v: string)
    ensures Count(AddTokens(idx, u, tokens), w, v) == Count(idx, w, v) + (if v == u then multiset(tokens)[w] else 0)
    decreases |tokens|
  {
    if tokens != [] {
      var init := tokens[..|tokens| - 1];
      var t := tokens[|tokens| - 1];
      var a := AddTokens(idx, u, init);
      assert AddTokens(idx, u, tokens) == AddOccurrence(a, t, u);
      AddTokensCount(idx, u, init, w, v);
      AddOccurrenceCount(a, t, u, w, v);
      SplitLast(tokens);
      assert multiset(tokens)[w] == multiset(init)[w] + (if w == t then 1 else 0);
    }
  }

  lemma {:induction false} AddTokensPresent(idx: Index, u: string, tokens: seq<string>, w: string, v: string)
    ensures Present(AddTokens(idx, u, tokens), w, v) <==> Present(idx, w, v) || (v == u && w in tokens)
    decreases |tokens|
  {
    if tokens != [] {
      var init := tokens[..|tokens| - 1];
      var t := tokens[|tokens| - 1];
      AddTokensPresent(idx, u, init, w, v);
      AddOccurrencePresent(AddTokens(idx, u, init), t, u, w, v);
      SplitLast(tokens);
      assert w in tokens <==> w in init || w == t;
    }
  }

  lemma {:induction false} AddTokensKeys(idx: Index, u: string, tokens: seq<string>)
    ensures forall w :: w in AddTokens(idx, u, tokens) <==> w in idx || w in tokens
    decreases |tokens|
  {
    if tokens != [] {
      var init := tokens[..|tokens| - 1];
      AddTokensKeys(idx, u, init);
      SplitLast(tokens);
      forall w ensures w in tokens <==> w in init || w == tokens[|tokens| - 1] {
      }
    }
  }

  lemma {:induction false} AddTokensWellFormed(idx: Index, u: string, tokens: seq<string>)
    requires WellFormed(idx)
    ensures WellFormed(AddTokens(idx, u, tokens))
    decreases |tokens|
  {
    if tokens != [] {
      var init := tokens[..|tokens| - 1];
      AddTokensWellFormed(idx, u, init);
      AddOccurrenceWellFormed(AddTokens(idx, u, init), tokens[|tokens| - 1], u);
    }
  }

  /** The outer loop over the crawl results. */
  function IndexPages(nz: Normaliser, pages: seq<(string, Page)>): Index {
    if pages == [] then map[]
    else
      var (u, p) := pages[|pages| - 1];
      AddTokens(IndexPages(nz, pages[..|pages| - 1]), u, PageTokens(nz, p))
  }

  /** indexer.py `build_inverted_index`. */
  function BuildInvertedIndex(nz: Normaliser, pages: seq<(string, Page)>): Built {
    Built(IndexPages(nz, pages), MetadataOf(pages))
  }

  /** How often `w` occurs in the tokens of page `u`, or 0 for a URL that was not crawled. */
  function Expected(nz: Normaliser, pages: seq<(string, Page)>, w: string, u: string): nat {
    var m := PageMap(pages);
    if u in m then multiset(PageTokens(nz, m[u]))[w] else 0
  }

  /** The last item's URL was not seen before it. */
  lemma LastIsNew(pages: seq<(string, Page)>)
    requires DistinctKeys(pages) && pages != []
    ensures pages[|pages| - 1].0 !in PageMap(pages[..|pages| - 1])
    ensures DistinctKeys(pages[..|pages| - 1])
  {
    var init := pages[..|pages| - 1];
    assert forall i | 0 <= i < |init| :: init[i].0 == pages[i].0 != pages[|pages| - 1].0;
  }

  /** Each stored count is the number of occurrences of the word among the page's tokens. */
  lemma {:induction false} IndexCount(nz: Normaliser, pages: seq<(string, Page)>, w: string, u: string)
    requires DistinctKeys(pages)
    ensures Count(IndexPages(nz, pages), w, u) == Expected(nz, pages, w, u)
    decreases |pages|
  {
    if pages != [] {
      var init := pages[..|pages| - 1];
      var (v, p) := pages[|pages| - 1];
      LastIsNew(pages);
      IndexCount(nz, init, w, u);
      AddTokensCount(IndexPages(nz, init), v, PageTokens(nz, p), w, u);
    }
  }

  /** Some item of the crawl results has URL `u` and `w` among its tokens. */
  predicate Occurs(nz: Normaliser, pages: seq<(string, Page)>, w: string, u: string) {
    exists i | 0 <= i < |pages| :: pages[i].0 == u && w in PageTokens(nz, pages[i].1)
  }

  lemma OccursLast(nz: Normaliser, pages: seq<(string, Page)>, w: string, u: string)
    requires pages != []
    ensures Occurs(nz, pages, w, u)
        <==> Occurs(nz, pages[..|pages| - 1], w, u)
             || (pages[|pages| - 1].0 == u && w in PageTokens(nz, pages[|pages| - 1].1))
  {
    var init := pages[..|pages| - 1];
    assert forall i | 0 <= i < |init| :: init[i] == pages[i];
  }

  /** A (word, url) pair is stored exactly when the word is among that page's tokens. */
  lemma {:induction false} IndexPresent(nz: Normaliser, pages: seq<(string, Page)>, w: string, u: string)
    ensures Present(IndexPages(nz, pages), w, u) <==> Occurs(nz, pages, w, u)
    decreases |pages|
  {
    if pages != [] {
      var init := pages[..|pages| - 1];
      var (v, p) := pages[|pages| - 1];
      assert IndexPages(nz, pages) == AddTokens(IndexPages(nz, init), v, PageTokens(nz, p));
      IndexPresent(nz, init, w, u);
      AddTokensPresent(IndexPages(nz, init), v, PageTokens(nz, p), w, u);
      OccursLast(nz, pages, w, u);
    } else {
      assert Urls([]) == [];
    }
  }

  lemma {:induction false} IndexWellFormed(nz: Normaliser, pages: seq<(string, Page)>)
    ensures WellFormed(IndexPages(nz, pages))
    decreases |pages|
  {
    if pages != [] {
      var init := pages[..|pages| - 1];
      var (v, p) := pages[|pages| - 1];
      IndexWellFormed(nz, init);
      AddTokensWellFormed(IndexPages(nz, init), v, PageTokens(nz, p));
    }
  }

  /** The page behind item `i` of a dict's items is the dict's value at its URL. */
  lemma PageMapAt(pages: seq<(string, Page)>, i: nat)
    requires DistinctKeys(pages) && i < |pages|
    ensures PageMap(pages)[pages[i].0] == pages[i].1
    decreases |pages|
  {
    if i < |pages| - 1 {
      LastIsNew(pages);
      var init := pages[..|pages| - 1];
      assert init[i] == pages[i];
      PageMapAt(init, i);
    }
  }

  /**
    indexer.py build_inverted_index: every stored count is the number of
    occurrences of the word in the page's token sequence; a (word, url) pair
    is stored exactly when that number is positive, so no zero is stored;
    every row is non-empty with distinct URLs.
   */
  lemma BuildCounts(nz: Normaliser, pages: seq<(string, Page)>)
    requires DistinctKeys(pages)
    ensures var idx := BuildInvertedIndex(nz, pages).index;
      && WellFormed(idx)
      && (forall w, u :: Count(idx, w, u) == Expected(nz, pages, w, u))
      && (forall w, u :: Present(idx, w, u) <==> u in PageMap(pages) && w in PageTokens(nz, PageMap(pages)[u]))
  {
    var idx := IndexPages(nz, pages);
    IndexWellFormed(nz, pages);
    forall w, u ensures Count(idx, w, u) == Expected(nz, pages, w, u) {
      IndexCount(nz, pages, w, u);
    }
    forall w, u ensures Present(idx, w, u) <==> u in PageMap(pages) && w in PageTokens(nz, PageMap(pages)[u]) {
      IndexPresent(nz, pages, w, u);
      if u in PageMap(pages) {
        var i :| 0 <= i < |pages| && pages[i].0 == u;
        PageMapAt(pages, i);
        if Occurs(nz, pages, w, u) {
          var j :| 0 <= j < |pages| && pages[j].0 == u && w in PageTokens(nz, pages[j].1);
          PageMapAt(pages, j);
        }
      }
    }
  }

  // ---------------------------------------------------------------------------
  // Per-page columns and order independence
  // ---------------------------------------------------------------------------

  /** The column of URL `u`: every word stored for `u`, with its count. */
  function Column(idx: Index, u: string): map<string, int> {
    map w | w in idx && Has(idx[w], u) :: Get(idx[w], u)
  }

  /** The term frequencies of one token sequence. */
  function TermFreq(tokens: seq<string>): map<string, int> {
    map w | w in tokens :: multiset(tokens)[w]
  }

  /** What the build stores for one crawled URL and one word. */
  lemma BuildAt(nz: Normaliser, pages: seq<(string, Page)>, w: string, u: string)
    requires DistinctKeys(pages) && u in PageMap(pages)
    ensures var idx, ts := IndexPages(nz, pages), PageTokens(nz, PageMap(pages)[u]);
      && Count(idx, w, u) == multiset(ts)[w]
      && (Present(idx, w, u) <==> w in ts)
  {
    IndexCount(nz, pages, w, u);
    IndexPresent(nz, pages, w, u);
    var i :| 0 <= i < |pages| && pages[i].0 == u;
    PageMapAt(pages, i);
    if Occurs(nz, pages, w, u) {
      var j :| 0 <= j < |pages| && pages[j].0 == u && w in PageTokens(nz, pages[j].1);
      PageMapAt(pages, j);
    }
  }

  /** The column of a crawled URL is the term-frequency table of that page's tokens alone. */
  lemma ColumnIsTermFreq(nz: Normaliser, pages: seq<(string, Page)>, u: string)
    requires DistinctKeys(pages) && u in PageMap(pages)
    ensures Column(BuildInvertedIndex(nz, pages).index, u) == TermFreq(PageTokens(nz, PageMap(pages)[u]))
  {
    var c := Column(IndexPages(nz, pages), u);
    var f := TermFreq(PageTokens(nz, PageMap(pages)[u]));
    forall w ensures (w in c <==> w in f) && (w in c ==> c[w] == f[w]) {
      ColumnAt(nz, pages, u, w);
    }
    MapsEqual(c, f);
  }

  lemma ColumnAt(nz: Normaliser, pages: seq<(string, Page)>, u: string, w: string)
    requires DistinctKeys(pages) && u in PageMap(pages)
    ensures var c, f := Column(IndexPages(nz, pages), u), TermFreq(PageTokens(nz, PageMap(pages)[u]));
      (w in c <==> w in f) && (w in c ==> c[w] == f[w])
  {
    BuildAt(nz, pages, w, u);
  }

  lemma MapsEqual(c: map<string, int>, f: map<string, int>)
    requires forall w :: (w in c <==> w in f) && (w in c ==> c[w] == f[w])
    ensures c == f
  {
  }

  ghost function SumValues(m: map<string, int>): int
    decreases |m|
  {
    if m == map[] then 0
    else
      var k :| k in m;
      m[k] + SumValues(m - {k})
  }

  /** The sum does not depend on which key is taken first. */
  lemma {:induction false} SumValuesRemove(m: map<string, int>, k: string)
    requires k in m
    ensures SumValues(m) == m[k] + SumValues(m - {k})
    decreases |m|
  {
    var x :| x in m && SumValues(m) == m[x] + SumValues(m - {x});
    if x != k {
      SumValuesRemove(m - {x}, k);
      SumValuesRemove(m - {k}, x);
      assert m - {x} - {k} == m - {k} - {x};
    }
  }

  lemma SumValuesUpdate(m: map<string, int>, k: string, v: int)
    ensures SumValues(m[k := v]) == SumValues(m) - (if k in m then m[k] else 0) + v
  {
    var m' := m[k := v];
    SumValuesRemove(m', k);
    assert m' - {k} == m - {k};
    if k in m {
      SumValuesRemove(m, k);
    } else {
      assert m - {k} == m;
    }
  }

  lemma TermFreqSnoc(init: seq<string>, t: string)
    ensures TermFreq(init + [t]) == TermFreq(init)[t := (if t in init then multiset(init)[t] else 0) + 1]
  {
    var ts := init + [t];
    assert multiset(ts) == multiset(init) + multiset{t};
    assert forall w :: w in ts <==> w in init || w == t;
  }

  lemma {:induction false} TermFreqSum(tokens: seq<string>)
    ensures SumValues(TermFreq(tokens)) == |tokens|
    decreases |tokens|
  {
    if tokens == [] {
      assert TermFreq(tokens) == map[];
    } else {
      var init := tokens[..|tokens| - 1];
      var t := tokens[|tokens| - 1];
      SplitLast(tokens);
      TermFreqSum(init);
      TermFreqSumSnoc(init, t);
    }
  }

  /** One more token raises the total by one. */
  lemma TermFreqSumSnoc(init: seq<string>, t: string)
    ensures SumValues(TermFreq(init + [t])) == SumValues(TermFreq(init)) + 1
  {
    var m := TermFreq(init);
    var v := (if t in init then multiset(init)[t] else 0) + 1;
    TermFreqSnoc(init, t);
    SumValuesUpdate(m, t, v);
    assert (if t in m then m[t] else 0) == v - 1;
  }

  /** Summing a crawled URL's column over all words gives the length of its token sequence. */
  lemma ColumnSum(nz: Normaliser, pages: seq<(string, Page)>, u: string)
    requires DistinctKeys(pages) && u in PageMap(pages)
    ensures SumValues(Column(BuildInvertedIndex(nz, pages).index, u)) == |PageTokens(nz, PageMap(pages)[u])|
  {
    ColumnIsTermFreq(nz, pages, u);
    TermFreqSum(PageTokens(nz, PageMap(pages)[u]));
  }

  /**
    Two iteration orders of the same crawl results give the same counts, the
    same stored pairs, the same words and the same metadata table; only the
    order inside a row (the dicts' insertion order) may differ.
   */
  lemma BuildOrderIndependent(nz: Normaliser, pages1: seq<(string, Page)>, pages2: seq<(string, Page)>)
    requires DistinctKeys(pages1) && DistinctKeys(pages2)
    requires PageMap(pages1) == PageMap(pages2)
    ensures var b1, b2 := BuildInvertedIndex(nz, pages1), BuildInvertedIndex(nz, pages2);
      && (forall w, u :: Count(b1.index, w, u) == Count(b2.index, w, u))
      && (forall w, u :: Present(b1.index, w, u) <==> Present(b2.index, w, u))
      && b1.index.Keys == b2.index.Keys
      && b1.metadata == b2.metadata
  {
    MetadataOrderIndependent(pages1, pages2);
    SameCounts(nz, pages1, pages2);
    SameWords(nz, pages1, pages2);
  }

  lemma SameCounts(nz: Normaliser, pages1: seq<(string, Page)>, pages2: seq<(string, Page)>)
    requires DistinctKeys(pages1) && DistinctKeys(pages2)
    requires PageMap(pages1) == PageMap(pages2)
    ensures var i1, i2 := IndexPages(nz, pages1), IndexPages(nz, pages2);
      && (forall w, u :: Count(i1, w, u) == Count(i2, w, u))
      && (forall w, u :: Present(i1, w, u) <==> Present(i2, w, u))
  {
    forall w, u
      ensures Count(IndexPages(nz, pages1), w, u) == Count(IndexPages(nz, pages2), w, u)
      ensures Present(IndexPages(nz, pages1), w, u) <==> Present(IndexPages(nz, pages2), w, u)
    {
      SameAt(nz, pages1, pages2, w, u);
    }
  }

  lemma SameWords(nz: Normaliser, pages1: seq<(string, Page)>, pages2: seq<(string, Page)>)
    requires DistinctKeys(pages1) && DistinctKeys(pages2)
    requires PageMap(pages1) == PageMap(pages2)
    ensures IndexPages(nz, pages1).Keys == IndexPages(nz, pages2).Keys
  {
    var i1: Index, i2: Index := IndexPages(nz, pages1), IndexPages(nz, pages2);
    IndexWellFormed(nz, pages1);
    IndexWellFormed(nz, pages2);
    forall w | w in i1 ensures w in i2 {
      var v := SomeUrl(i1, w);
      SameAt(nz, pages1, pages2, w, v);
    }
    forall w | w in i2 ensures w in i1 {
      var v := SomeUrl(i2, w);
      SameAt(nz, pages1, pages2, w, v);
    }
  }

  lemma MetadataOrderIndependent(pages1: seq<(string, Page)>, pages2: seq<(string, Page)>)
    requires PageMap(pages1) == PageMap(pages2)
    ensures MetadataOf(pages1) == MetadataOf(pages2)
  {
  }

  /** A word of a well-formed index is stored for at least one URL. */
  lemma SomeUrl(idx: Index, w: string) returns (u: string)
    requires WellFormed(idx) && w in idx
    ensures Present(idx, w, u)
  {
    var row := idx[w];
    u := row[0].url;
    assert Urls(row)[0] == u;
  }

  lemma SameAt(nz: Normaliser, pages1: seq<(string, Page)>, pages2: seq<(string, Page)>, w: string, u: string)
    requires DistinctKeys(pages1) && DistinctKeys(pages2)
    requires PageMap(pages1) == PageMap(pages2)
    ensures Count(IndexPages(nz, pages1), w, u) == Count(IndexPages(nz, pages2), w, u)
    ensures Present(IndexPages(nz, pages1), w, u) <==> Present(IndexPages(nz, pages2), w, u)
  {
    if u in PageMap(pages1) {
      BuildAt(nz, pages1, w, u);
      BuildAt(nz, pages2, w, u);
    } else {
      IndexCount(nz, pages1, w, u);
      IndexCount(nz, pages2, w, u);
      IndexPresent(nz, pages1, w, u);
      IndexPresent(nz, pages2, w, u);
    }
  }
}

=== FILE: postings.dfy ===
/**
  An insertion-ordered Python dict from URL to an integer, as used for one
  row of the inverted index (`inverted_index[word]`, then written to and read
  back from JSON) and for the query engine's running scores. Iteration order
  is the order in which keys were first inserted; it decides the order of
  tied search results, so it is kept here rather than abstracted into a map.
 */
module Postings {
  import opened Seqs

  datatype Posting = Posting(url: string, count: int)

  type PostingList = seq<Posting>

  /** The keys, in iteration order. */
  function Urls(ps: PostingList): seq<string> {
    seq(|ps|, i requires 0 <= i < |ps| => ps[i].url)
  }

  lemma UrlsCons(ps: PostingList)
    requires ps != []
    ensures Urls(ps) == [ps[0].url] + Urls(ps[1..])
  {
  }

  lemma UrlsAppend(a: PostingList, b: PostingList)
    ensures Urls(a + b) == Urls(a) + Urls(b)
  {
  }

  predicate Has(ps: PostingList, url: string) {
    url in Urls(ps)
  }

  predicate DistinctUrls(ps: PostingList) {
    forall i, j | 0 <= i < j < |ps| :: ps[i].url != ps[j].url
  }

  /** `d.get(url, 0)`. */
  function Get(ps: PostingList, url: string): (r: int)
    ensures !Has(ps, url) ==> r == 0
    ensures Has(ps, url) ==> exists i | 0 <= i < |ps| :: ps[i].url == url && ps[i].count == r
  {
    if ps == [] then 0
    else
      UrlsCons(ps);
      if ps[0].url == url then ps[0].count
      else
        var r := Get(ps[1..], url);
        assert Has(ps[1..], url) ==> exists i | 0 <= i < |ps| :: ps[i].url == url && ps[i].count == r by {
          if Has(ps[1..], url) {
            var i :| 0 <= i < |ps| - 1 && ps[1..][i].url == url && ps[1..][i].count == r;
            assert ps[i + 1] == ps[1..][i];
          }
        }
        r
  }

  /**
    `d[url] = d.get(url, 0) + delta`: only the value at `url` changes; an
    existing key keeps its place and a new key is inserted last.
   */
  function Bump(ps: PostingList, url: string, delta: int): (r: PostingList)
    ensures forall v :: Get(r, v) == Get(ps, v) + (if v == url then delta else 0)
    ensures Urls(r) == if Has(ps, url) then Urls(ps) else Urls(ps) + [url]
    ensures forall i | 0 <= i < |r| :: r[i] in ps || (r[i].url == url && r[i].count == Get(ps, url) + delta)
    ensures DistinctUrls(ps) ==> DistinctUrls(r)
  {
    if ps == [] then [Posting(url, delta)]
    else if ps[0].url == url then
      BumpHead(ps, delta);
      [Posting(url, ps[0].count + delta)] + ps[1..]
    else
      var rest := Bump(ps[1..], url, delta);
      BumpCons(ps, url, delta, rest);
      [ps[0]] + rest
  }

  /** Looking up a key in a list with a known first entry. */
  lemma GetCons(p: Posting, rest: PostingList, v: string)
    ensures Get([p] + rest, v) == if p.url == v then p.count else Get(rest, v)
    ensures Has([p] + rest, v) <==> p.url == v || Has(rest, v)
  {
    UrlsCons([p] + rest);
    assert ([p] + rest)[1..] == rest;
  }

  lemma BumpHead(ps: PostingList, delta: int)
    requires ps != []
    ensures Has(ps, ps[0].url)
    ensures var r := [Posting(ps[0].url, ps[0].count + delta)] + ps[1..];
      && (forall v :: Get(r, v) == Get(ps, v) + (if v == ps[0].url then delta else 0))
      && Urls(r) == Urls(ps)
      && (forall i | 0 <= i < |r| :: r[i] in ps || (r[i].url == ps[0].url && r[i].count == Get(ps, ps[0].url) + delta))
      && (DistinctUrls(ps) ==> DistinctUrls(r))
  {
    var r := [Posting(ps[0].url, ps[0].count + delta)] + ps[1..];
    assert ps == [ps[0]] + ps[1..];
    UrlsCons(ps);
    forall v ensures Get(r, v) == Get(ps, v) + (if v == ps[0].url then delta else 0) {
      GetCons(r[0], ps[1..], v);
      GetCons(ps[0], ps[1..], v);
    }
  }

  /** The recursive case of `Bump`: the first entry is kept in front of the bumped tail. */
  lemma BumpCons(ps: PostingList, url: string, delta: int, rest: PostingList)
    requires ps != [] && ps[0].url != url
    requires forall v :: Get(rest, v) == Get(ps[1..], v) + (if v == url then delta else 0)
    requires Urls(rest) == if Has(ps[1..], url) then Urls(ps[1..]) else Urls(ps[1..]) + [url]
    requires forall i | 0 <= i < |rest| :: rest[i] in ps[1..] || (rest[i].url == url && rest[i].count == Get(ps[1..], url) + delta)
    requires DistinctUrls(ps[1..]) ==> DistinctUrls(rest)
    ensures var r := [ps[0]] + rest;
      && (forall v :: Get(r, v) == Get(ps, v) + (if v == url then delta else 0))
      && Urls(r) == (if Has(ps, url) then Urls(ps) else Urls(ps) + [url])
      && (forall i | 0 <= i < |r| :: r[i] in ps || (r[i].url == url && r[i].count == Get(ps, url) + delta))
      && (DistinctUrls(ps) ==> DistinctUrls(r))
  {
    assert ps == [ps[0]] + ps[1..];
    BumpConsGet(ps[0], ps[1..], url, delta, rest);
    BumpConsUrls(ps[0], ps[1..], url, rest);
    BumpConsMembers(ps[0], ps[1..], url, delta, rest);
    BumpConsDistinct(ps[0], ps[1..], url, rest);
  }

  lemma BumpConsGet(p: Posting, tail: PostingList, url: string, delta: int, rest: PostingList)
    requires p.url != url
    requires forall v :: Get(rest, v) == Get(tail, v) + (if v == url then delta else 0)
    ensures forall v :: Get([p] + rest, v) == Get([p] + tail, v) + (if v == url then delta else 0)
  {
    forall v ensures Get([p] + rest, v) == Get([p] + tail, v) + (if v == url then delta else 0) {
      GetCons(p, rest, v);
      GetCons(p, tail, v);
    }
  }

  lemma BumpConsUrls(p: Posting, tail: PostingList, url: string, rest: PostingList)
    requires p.url != url
    requires Urls(rest) == if Has(tail, url) then Urls(tail) else Urls(tail) + [url]
    ensures Urls([p] + rest) == if Has([p] + tail, url) then Urls([p] + tail) else Urls([p] + tail) + [url]
  {
    UrlsAppend([p], rest);
    UrlsAppend([p], tail);
    GetCons(p, tail, url);
  }

  lemma BumpConsMembers(p: Posting, tail: PostingList, url: string, delta: int, rest: PostingList)
    requires p.url != url
    requires forall i | 0 <= i < |rest| :: rest[i] in tail || (rest[i].url == url && rest[i].count == Get(tail, url) + delta)
    ensures forall i | 0 <= i < |[p] + rest| ::
      ([p] + rest)[i] in [p] + tail || (([p] + rest)[i].url == url && ([p] + rest)[i].count == Get([p] + tail, url) + delta)
  {
    GetCons(p, tail, url);
    forall i | 0 <= i < |[p] + rest|
      ensures ([p] + rest)[i] in [p] + tail || (([p] + rest)[i].url == url && ([p] + rest)[i].count == Get([p] + tail, url) + delta)
    {
      if i > 0 {
        assert ([p] + rest)[i] == rest[i - 1];
      }
    }
  }

  lemma BumpConsDistinct(p: Posting, tail: PostingList, url: string, rest: PostingList)
    requires p.url != url
    requires Urls(rest) == if Has(tail, url) then Urls(tail) else Urls(tail) + [url]
    requires DistinctUrls(tail) ==> DistinctUrls(rest)
    ensures DistinctUrls([p] + tail) ==> DistinctUrls([p] + rest)
  {
    if DistinctUrls([p] + tail) {
      var r := [p] + rest;
      assert DistinctUrls(tail) by {
        forall i, j | 0 <= i < j < |tail| ensures tail[i].url != tail[j].url {
          assert tail[i] == ([p] + tail)[i + 1] && tail[j] == ([p] + tail)[j + 1];
        }
      }
      assert !Has(tail, p.url) by {
        forall k | 0 <= k < |tail| ensures Urls(tail)[k] != p.url {
          assert ([p] + tail)[k + 1] == tail[k] && ([p] + tail)[0] == p;
        }
      }
      forall i, j | 0 <= i < j < |r| ensures r[i].url != r[j].url {
        if i == 0 {
          assert r[j].url == Urls(rest)[j - 1];
        } else {
          assert r[i] == rest[i - 1] && r[j] == rest[j - 1];
        }
      }
    }
  }

  // ---------------------------------------------------------------------------
  // Key order
  // ---------------------------------------------------------------------------

  /**
    The key order of a dict holding the keys `keys` after `us` are assigned
    in turn: a key not yet present goes last, a present key stays put.
   */
  function Extend(keys: seq<string>, us: seq<string>): seq<string> {
    if us == [] then keys
    else
      var e := Extend(keys, us[..|us| - 1]);
      if us[|us| - 1] in e then e else e + [us[|us| - 1]]
  }

  /** Each key of `us` once, at the place where it first occurs. */
  function FirstOccurrences(us: seq<string>): seq<string> {
    if us == [] then []
    else
      var init := us[..|us| - 1];
      FirstOccurrences(init) + (if us[|us| - 1] in init then [] else [us[|us| - 1]])
  }

  /** The first occurrences list every key of `us`, and each only once. */
  lemma {:induction false} FirstOccurrencesSpec(us: seq<string>)
    ensures forall x :: x in FirstOccurrences(us) <==> x in us
    ensures forall i, j | 0 <= i < j < |FirstOccurrences(us)| :: FirstOccurrences(us)[i] != FirstOccurrences(us)[j]
    decreases |us|
  {
    if us != [] {
      var init, u := us[..|us| - 1], us[|us| - 1];
      FirstOccurrencesSpec(init);
      SplitLast(us);
    }
  }

  lemma {:induction false} ExtendMembers(keys: seq<string>, us: seq<string>, x: string)
    ensures x in Extend(keys, us) <==> x in keys || x in us
    decreases |us|
  {
    if us != [] {
      ExtendMembers(keys, us[..|us| - 1], x);
      SplitLast(us);
    }
  }

  /** Assigning `a` and then `b` orders the keys as assigning `a + b` does. */
  lemma {:induction false} ExtendAppend(keys: seq<string>, a: seq<string>, b: seq<string>)
    ensures Extend(Extend(keys, a), b) == Extend(keys, a + b)
    decreases |b|
  {
    if b == [] {
      assert a + b == a;
    } else {
      ExtendAppend(keys, a, b[..|b| - 1]);
      assert (a + b)[..|a + b| - 1] == a + b[..|b| - 1];
      assert (a + b)[|a + b| - 1] == b[|b| - 1];
    }
  }

  /** Starting from an empty dict, the key order is the order of first occurrence. */
  lemma {:induction false} ExtendFromEmpty(us: seq<string>)
    ensures Extend([], us) == FirstOccurrences(us)
    decreases |us|
  {
    if us != [] {
      var init := us[..|us| - 1];
      ExtendFromEmpty(init);
      ExtendMembers([], init, us[|us| - 1]);
    }
  }
}

=== FILE: seqs.dfy ===
/**
  General facts about sequences that the other modules' proofs use to split
  and re-associate sequences without asserting sequence equalities inline.
 */
module Seqs {

  /** A non-empty sequence is its prefix followed by its last element. */
  lemma SplitLast<T>(s: seq<T>)
    requires s != []
    ensures s == s[..|s| - 1] + [s[|s| - 1]]
  {
  }

  /** A non-empty sequence is its first element followed by the rest. */
  lemma SplitFirst<T>(s: seq<T>)
    requires s != []
    ensures s == [s[0]] + s[1..]
  {
  }

  lemma ConcatAssoc<T>(a: seq<T>, b: seq<T>, c: seq<T>)
    ensures a + (b + c) == (a + b) + c
  {
  }

  /** Indexing and slicing a prefix agree with indexing and slicing the whole. */
  lemma PrefixOfPrefix<T>(s: seq<T>, n: nat, k: nat)
    requires k < n <= |s|
    ensures s[..n][k] == s[k]
    ensures s[..n][..k] == s[..k]
    ensures s[..n][..k + 1] == s[..k + 1]
    ensures s[..k + 1] == s[..k] + [s[k]]
  {
  }
}

=== FILE: serving.dfy ===
/**
  The query engine: normalise the query exactly as pages were normalised,
  add up every matching posting into a per-URL score, rank by descending
  score with a stable sort, and join each URL with its metadata.

  The index and metadata are the two members of the JSON file written by
  the indexer; each row of the index keeps the insertion order it had there.
 */
module Serving {
  import opened Seqs
  import opened Text
  import opened Postings
  import opened Indexer

  /** serving.py `preprocess_query`: the indexer's pipeline, written out a second time. */
  function PreprocessQuery(nz: Normaliser, query: string): (tokens: seq<string>)
    ensures tokens == Preprocess(nz, query)
  {
    StemAll(nz.stem, Kept(nz.stopwords, Split(Clean(query))))
  }

  // ---------------------------------------------------------------------------
  // Score accumulation
  // ---------------------------------------------------------------------------

  /** The sum of the counts that `ps` lists for `u` (a row from JSON lists a URL once). */
  function PostingTotal(ps: PostingList, u: string): int {
    if ps == [] then 0
    else
      var last := ps[|ps| - 1];
      PostingTotal(ps[..|ps| - 1], u) + (if last.url == u then last.count else 0)
  }

  /**
    The inner loop of `search`: `scores[url] = scores.get(url, 0) + freq` for
    every posting of one word. Scores move by exactly the posting totals, the
    key set grows by the row's URLs, and URLs already scored keep their places.
   */
  function AddPostings(scores: PostingList, ps: PostingList): (r: PostingList)
    ensures forall v :: Get(r, v) == Get(scores, v) + PostingTotal(ps, v)
    ensures forall v :: Has(r, v) <==> Has(scores, v) || Has(ps, v)
    ensures DistinctUrls(scores) ==> DistinctUrls(r)
    ensures Urls(scores) <= Urls(r)
    ensures Urls(r) == Extend(Urls(scores), Urls(ps))
  {
    if ps == [] then
      assert Urls(ps) == [];
      scores
    else
      var init := ps[..|ps| - 1];
      var r0 := AddPostings(scores, init);
      var r := Bump(r0, ps[|ps| - 1].url, ps[|ps| - 1].count);
      AddPostingsStep(scores, ps, r0, r);
      StepOrder(Urls(scores), ps, r0, r);
      r
  }

  /** The key order after one more posting: its URL goes last unless already scored. */
  lemma StepOrder(keys: seq<string>, ps: PostingList, r0: PostingList, r: PostingList)
    requires ps != []
    requires Urls(r0) == Extend(keys, Urls(ps[..|ps| - 1]))
    requires r == Bump(r0, ps[|ps| - 1].url, ps[|ps| - 1].count)
    ensures Urls(r) == Extend(keys, Urls(ps))
  {
    var init, last := ps[..|ps| - 1], ps[|ps| - 1];
    SplitLast(ps);
    UrlsAppend(init, [last]);
    var us := Urls(ps);
    assert us[..|us| - 1] == Urls(init) && us[|us| - 1] == last.url;
  }

  /** One posting added on top of the scores for all the earlier ones. */
  lemma AddPostingsStep(scores: PostingList, ps: PostingList, r0: PostingList, r: PostingList)
    requires ps != []
    requires forall v :: Get(r0, v) == Get(scores, v) + PostingTotal(ps[..|ps| - 1], v)
    requires forall v :: Has(r0, v) <==> Has(scores, v) || Has(ps[..|ps| - 1], v)
    requires DistinctUrls(scores) ==> DistinctUrls(r0)
    requires Urls(scores) <= Urls(r0)
    requires r == Bump(r0, ps[|ps| - 1].url, ps[|ps| - 1].count)
    ensures forall v :: Get(r, v) == Get(scores, v) + PostingTotal(ps, v)
    ensures forall v :: Has(r, v) <==> Has(scores, v) || Has(ps, v)
    ensures DistinctUrls(scores) ==> DistinctUrls(r)
    ensures Urls(scores) <= Urls(r)
  {
    StepGet(scores, ps, r0, r);
    StepHas(scores, ps, r0, r);
    StepPrefix(scores, ps, r0, r);
  }

  lemma StepGet(scores: PostingList, ps: PostingList, r0: PostingList, r: PostingList)
    requires ps != []
    requires forall v :: Get(r0, v) == Get(scores, v) + PostingTotal(ps[..|ps| - 1], v)
    requires r == Bump(r0, ps[|ps| - 1].url, ps[|ps| - 1].count)
    ensures forall v :: Get(r, v) == Get(scores, v) + PostingTotal(ps, v)
  {
  }

  lemma StepHas(scores: PostingList, ps: PostingList, r0: PostingList, r: PostingList)
    requires ps != []
    requires forall v :: Has(r0, v) <==> Has(scores, v) || Has(ps[..|ps| - 1], v)
    requires r == Bump(r0, ps[|ps| - 1].url, ps[|ps| - 1].count)
    ensures forall v :: Has(r, v) <==> Has(scores, v) || Has(ps, v)
  {
    var init, last := ps[..|ps| - 1], ps[|ps| - 1];
    SplitLast(ps);
    UrlsAppend(init, [last]);
    var us := Urls(init) + [last.url];
    assert Urls(ps) == us;
    var ur := Urls(r);
    assert ur == Urls(r0) || ur == Urls(r0) + [last.url];
    forall v ensures Has(r, v) <==> Has(r0, v) || v == last.url {
      assert Has(r, v) == (v in ur);
    }
    forall v ensures Has(ps, v) <==> Has(init, v) || v == last.url {
      assert Has(ps, v) == (v in us);
    }
  }

  lemma StepPrefix(scores: PostingList, ps: PostingList, r0: PostingList, r: PostingList)
    requires ps != []
    requires Urls(scores) <= Urls(r0)
    requires r == Bump(r0, ps[|ps| - 1].url, ps[|ps| - 1].count)
    ensures Urls(scores) <= Urls(r)
  {
  }

  /** One word of the query: its row is added only when the word is in the index. */
  function AddWord(scores: PostingList, index: Index, w: string): PostingList {
    if w in index then AddPostings(scores, index[w]) else scores
  }

  /** The reference score: the sum over the query tokens, repeats included, of each token's count for `u`. */
  function ScoreOf(index: Index, words: seq<string>, u: string): int {
    if words == [] then 0
    else
      var w := words[|words| - 1];
      ScoreOf(index, words[..|words| - 1], u) + (if w in index then PostingTotal(index[w], u) else 0)
  }

  /** Some query token is in the index and its row lists `u`. */
  predicate Hit(index: Index, words: seq<string>, u: string) {
    exists i | 0 <= i < |words| :: words[i] in index && Has(index[words[i]], u)
  }

  lemma HitSnoc(index: Index, words: seq<string>, u: string)
    requires words != []
    ensures Hit(index, words, u)
        <==> Hit(index, words[..|words| - 1], u)
             || (words[|words| - 1] in index && Has(index[words[|words| - 1]], u))
  {
    var init := words[..|words| - 1];
    assert forall i | 0 <= i < |init| :: init[i] == words[i];
  }

  /**
    The `scores` dict after the loop over the query tokens: each URL's score
    is the reference score, the scored URLs are exactly those some token's
    row lists, and each is listed once.
   */
  function Scores(index: Index, words: seq<string>): (r: PostingList)
    ensures forall u :: Get(r, u) == ScoreOf(index, words, u)
    ensures forall u :: Has(r, u) <==> Hit(index, words, u)
    ensures DistinctUrls(r)
    ensures Urls(r) == FirstOccurrences(RowUrls(index, words))
  {
    if words == [] then
      assert Urls([]) == [];
      []
    else
      var init := words[..|words| - 1];
      var w := words[|words| - 1];
      var r0 := Scores(index, init);
      assert forall u :: Hit(index, words, u) <==> (Hit(index, init, u) || (w in index && Has(index[w], u))) by {
        forall u ensures Hit(index, words, u) <==> (Hit(index, init, u) || (w in index && Has(index[w], u))) {
          HitSnoc(index, words, u);
        }
      }
      ScoresOrder(index, words, r0);
      AddWord(r0, index, w)
  }

  /** The URLs of the query tokens' rows, token by token, each row in its own order. */
  function RowUrls(index: Index, words: seq<string>): seq<string> {
    if words == [] then []
    else
      var w := words[|words| - 1];
      RowUrls(index, words[..|words| - 1]) + (if w in index then Urls(index[w]) else [])
  }

  lemma ScoresOrder(index: Index, words: seq<string>, r0: PostingList)
    requires words != []
    requires Urls(r0) == FirstOccurrences(RowUrls(index, words[..|words| - 1]))
    ensures Urls(AddWord(r0, index, words[|words| - 1])) == FirstOccurrences(RowUrls(index, words))
  {
    var init, w := words[..|words| - 1], words[|words| - 1];
    var row := if w in index then Urls(index[w]) else [];
    ExtendFromEmpty(RowUrls(index, init));
    ExtendAppend([], RowUrls(index, init), row);
    ExtendFromEmpty(RowUrls(index, words));
    if w !in index {
      assert RowUrls(index, words) == RowUrls(index, init) + [];
    }
  }

  /** A URL, once scored, keeps its place while later query tokens are added. */
  lemma {:induction false} ScoresOrderStable(index: Index, words: seq<string>, i: nat, j: nat)
    requires i <= j <= |words|
    ensures Urls(Scores(index, words[..i])) <= Urls(Scores(index, words[..j]))
    decreases j - i
  {
    if i < j {
      ScoresOrderStable(index, words, i, j - 1);
      assert words[..j][..j - 1] == words[..j - 1];
      var w := words[..j][j - 1];
      var r0 := Scores(index, words[..j - 1]);
      assert Scores(index, words[..j]) == AddWord(r0, index, w);
    }
  }

  /** When every stored count is positive, so is every score of a scored URL. */
  lemma {:induction false} ScorePositive(index: Index, words: seq<string>, u: string)
    requires forall w | w in index :: forall i | 0 <= i < |index[w]| :: index[w][i].count >= 1
    requires Hit(index, words, u)
    ensures ScoreOf(index, words, u) >= 1
    decreases |words|
  {
    var init := words[..|words| - 1];
    var w := words[|words| - 1];
    HitSnoc(index, words, u);
    ScoreNonNegative(index, init, u);
    if w in index {
      PostingTotalPositive(index[w], u);
    }
    if !(w in index && Has(index[w], u)) {
      ScorePositive(index, init, u);
    }
  }

  lemma {:induction false} ScoreNonNegative(index: Index, words: seq<string>, u: string)
    requires forall w | w in index :: forall i | 0 <= i < |index[w]| :: index[w][i].count >= 1
    ensures ScoreOf(index, words, u) >= 0
    decreases |words|
  {
    if words != [] {
      var w := words[|words| - 1];
      ScoreNonNegative(index, words[..|words| - 1], u);
      if w in index {
        PostingTotalPositive(index[w], u);
      }
    }
  }

  lemma {:induction false} PostingTotalPositive(ps: PostingList, u: string)
    requires forall i | 0 <= i < |ps| :: ps[i].count >= 1
    ensures PostingTotal(ps, u) >= 0
    ensures Has(ps, u) ==> PostingTotal(ps, u) >= 1
    decreases |ps|
  {
    if ps != [] {
      var init := ps[..|ps| - 1];
      PostingTotalPositive(init, u);
      UrlsAppend(init, [ps[|ps| - 1]]);
      SplitLast(ps);
    }
  }

  // ---------------------------------------------------------------------------
  // Ranking: `sorted(scores.items(), key=score, reverse=True)`
  // ---------------------------------------------------------------------------

  predicate SortedDesc(ps: PostingList) {
    forall i, j | 0 <= i < j < |ps| :: ps[i].count >= ps[j].count
  }

  /** The entries with score `k`, in their order. */
  function WithScore(ps: PostingList, k: int): PostingList {
    if ps == [] then []
    else (if ps[0].count == k then [ps[0]] else []) + WithScore(ps[1..], k)
  }

  /** The filter keeps exactly the entries of score `k`. */
  lemma {:induction false} WithScoreMembers(ps: PostingList, k: int)
    ensures forall e :: e in WithScore(ps, k) <==> e in ps && e.count == k
    decreases |ps|
  {
    if ps != [] {
      WithScoreMembers(ps[1..], k);
      assert ps == [ps[0]] + ps[1..];
    }
  }

  lemma {:induction false} WithScoreAppend(a: PostingList, b: PostingList, k: int)
    ensures WithScore(a + b, k) == WithScore(a, k) + WithScore(b, k)
    decreases |a|
  {
    if a == [] {
      assert a + b == b;
    } else {
      assert a + b == [a[0]] + (a[1..] + b);
      assert a == [a[0]] + a[1..];
      WithScoreCons(a[0], a[1..] + b, k);
      WithScoreCons(a[0], a[1..], k);
      WithScoreAppend(a[1..], b, k);
    }
  }

  /** Insert `x` after every entry whose score is at least its own. */
  function InsertDesc(x: Posting, t: PostingList): (r: PostingList)
    ensures multiset(r) == multiset(t) + multiset{x}
    ensures forall e :: e in r <==> e == x || e in t
  {
    if t == [] then [x]
    else if t[0].count < x.count then [x] + t
    else
      assert t == [t[0]] + t[1..];
      [t[0]] + InsertDesc(x, t[1..])
  }

  lemma {:induction false} InsertDescSorted(x: Posting, t: PostingList)
    requires SortedDesc(t)
    ensures SortedDesc(InsertDesc(x, t))
    decreases |t|
  {
    if t != [] && t[0].count >= x.count {
      var r0 := InsertDesc(x, t[1..]);
      InsertDescSorted(x, t[1..]);
      forall e | e in r0 ensures t[0].count >= e.count {
        if e != x {
          var j :| 0 <= j < |t[1..]| && t[1..][j] == e;
          assert t[j + 1] == e;
        }
      }
      SortedCons(t[0], r0);
    }
  }

  /** An entry scoring at least as high as every entry of a sorted list can lead it. */
  lemma SortedCons(h: Posting, r0: PostingList)
    requires SortedDesc(r0)
    requires forall e | e in r0 :: h.count >= e.count
    ensures SortedDesc([h] + r0)
  {
    var r := [h] + r0;
    forall i, j | 0 <= i < j < |r| ensures r[i].count >= r[j].count {
      assert r[j] == r0[j - 1];
      if i > 0 {
        assert r[i] == r0[i - 1];
      }
    }
  }

  /** Inserting `x` into a sorted list appends it to the entries of its own score. */
  lemma {:induction false} InsertDescStable(x: Posting, t: PostingList, k: int)
    requires SortedDesc(t)
    ensures WithScore(InsertDesc(x, t), k) == WithScore(t, k) + (if x.count == k then [x] else [])
    decreases |t|
  {
    if t == [] {
      WithScoreCons(x, [], k);
    } else if t[0].count < x.count {
      assert InsertDesc(x, t) == [x] + t;
      WithScoreCons(x, t, k);
      if x.count == k {
        NoneAbove(t, k);
      }
    } else {
      InsertDescStable(x, t[1..], k);
      assert InsertDesc(x, t) == [t[0]] + InsertDesc(x, t[1..]);
      InsertDescStableStep(x, t, k, InsertDesc(x, t[1..]));
    }
  }

  lemma InsertDescStableStep(x: Posting, t: PostingList, k: int, r0: PostingList)
    requires t != []
    requires WithScore(r0, k) == WithScore(t[1..], k) + (if x.count == k then [x] else [])
    ensures WithScore([t[0]] + r0, k) == WithScore(t, k) + (if x.count == k then [x] else [])
  {
    var head := if t[0].count == k then [t[0]] else [];
    var tail := if x.count == k then [x] else [];
    WithScoreCons(t[0], r0, k);
    WithScoreCons(t[0], t[1..], k);
    SplitFirst(t);
    ConcatAssoc(head, WithScore(t[1..], k), tail);
  }

  lemma WithScoreHead(t: PostingList)
    requires t != []
    ensures WithScore(t, t[0].count) != []
  {
  }

  lemma WithScoreCons(e: Posting, t: PostingList, k: int)
    ensures WithScore([e] + t, k) == (if e.count == k then [e] else []) + WithScore(t, k)
  {
    assert ([e] + t)[1..] == t;
  }

  /** A sorted list whose head scores below `k` has no entry of score `k`. */
  lemma NoneAbove(t: PostingList, k: int)
    requires SortedDesc(t) && t != [] && t[0].count < k
    ensures WithScore(t, k) == []
  {
    assert forall i | 0 <= i < |t| :: t[i].count <= t[0].count;
    WithScoreNone(t, k);
  }

  lemma {:induction false} WithScoreNone(t: PostingList, k: int)
    requires forall i | 0 <= i < |t| :: t[i].count != k
    ensures WithScore(t, k) == []
    decreases |t|
  {
    if t != [] {
      assert forall i | 0 <= i < |t[1..]| :: t[1..][i] == t[i + 1];
      WithScoreNone(t[1..], k);
    }
  }

  lemma InsertDescDistinct(x: Posting, t: PostingList)
    requires DistinctUrls(t) && !Has(t, x.url)
    ensures DistinctUrls(InsertDesc(x, t))
    decreases |t|
  {
    if t != [] && t[0].count >= x.count {
      UrlsCons(t);
      InsertDescDistinct(x, t[1..]);
      var r0 := InsertDesc(x, t[1..]);
      forall i | 0 <= i < |r0| ensures r0[i].url != t[0].url {
        assert r0[i] in r0;
        if r0[i] != x {
          var j :| 0 <= j < |t[1..]| && t[1..][j] == r0[i];
          assert t[j + 1] == r0[i];
        }
      }
    } else if t != [] {
      forall i | 0 <= i < |t| ensures t[i].url != x.url {
        assert Urls(t)[i] == t[i].url;
      }
    }
  }

  /**
    A stable sort by descending score: the result is sorted, is a permutation
    of the input, and lists the entries of each score in their input order.
   */
  function SortDesc(ps: PostingList): (r: PostingList)
    ensures SortedDesc(r)
    ensures multiset(r) == multiset(ps)
    ensures forall e :: e in r <==> e in ps
  {
    if ps == [] then []
    else
      var r0 := SortDesc(ps[..|ps| - 1]);
      InsertDescSorted(ps[|ps| - 1], r0);
      SplitLast(ps);
      InsertDesc(ps[|ps| - 1], r0)
  }

  /** Entries of equal score leave the sort in the order they entered it. */
  lemma {:induction false} SortDescStable(ps: PostingList, k: int)
    ensures WithScore(SortDesc(ps), k) == WithScore(ps, k)
    decreases |ps|
  {
    if ps != [] {
      var init := ps[..|ps| - 1];
      SortDescStable(init, k);
      SortDescStableStep(ps, SortDesc(init), k);
    }
  }

  lemma SortDescStableStep(ps: PostingList, r0: PostingList, k: int)
    requires ps != [] && SortedDesc(r0)
    requires WithScore(r0, k) == WithScore(ps[..|ps| - 1], k)
    ensures WithScore(InsertDesc(ps[|ps| - 1], r0), k) == WithScore(ps, k)
  {
    var init, last := ps[..|ps| - 1], ps[|ps| - 1];
    var tail := if last.count == k then [last] else [];
    InsertDescStable(last, r0, k);
    SplitLast(ps);
    WithScoreAppend(init, [last], k);
    assert WithScore([last], k) == tail + WithScore([], k);
  }

  lemma {:induction false} SortDescDistinct(ps: PostingList)
    requires DistinctUrls(ps)
    ensures DistinctUrls(SortDesc(ps))
    decreases |ps|
  {
    if ps != [] {
      var init := ps[..|ps| - 1];
      var last := ps[|ps| - 1];
      assert DistinctUrls(init);
      SortDescDistinct(init);
      var r0 := SortDesc(init);
      forall i | 0 <= i < |r0| ensures Urls(r0)[i] != last.url {
        assert r0[i] in r0;
        var j :| 0 <= j < |init| && init[j] == r0[i];
        assert ps[j] == init[j];
      }
      InsertDescDistinct(last, r0);
    }
  }

  /**
    The ranking is fully determined: two sorted lists that keep every
    score's entries in the same order are the same list. So ties are broken
    by the order in which URLs were first scored, and never arbitrarily.
   */
  lemma {:induction false} StableSortUnique(r1: PostingList, r2: PostingList)
    requires SortedDesc(r1) && SortedDesc(r2)
    requires forall k :: WithScore(r1, k) == WithScore(r2, k)
    ensures r1 == r2
    decreases |r1| + |r2|
  {
    if r1 == [] && r2 == [] {
    } else if r1 == [] {
      WithScoreHead(r2);
      assert false;
    } else if r2 == [] {
      WithScoreHead(r1);
      assert false;
    } else {
      StableSortHeads(r1, r2);
      StableSortUnique(r1[1..], r2[1..]);
      assert r1 == [r1[0]] + r1[1..] && r2 == [r2[0]] + r2[1..];
    }
  }

  /** Two such lists start with the same entry and agree, score by score, after it. */
  lemma StableSortHeads(r1: PostingList, r2: PostingList)
    requires r1 != [] && r2 != []
    requires SortedDesc(r1) && SortedDesc(r2)
    requires forall k :: WithScore(r1, k) == WithScore(r2, k)
    ensures r1[0] == r2[0]
    ensures SortedDesc(r1[1..]) && SortedDesc(r2[1..])
    ensures forall k :: WithScore(r1[1..], k) == WithScore(r2[1..], k)
  {
    HeadScoreBound(r1, r2);
    HeadScoreBound(r2, r1);
    forall k ensures WithScore(r1[1..], k) == WithScore(r2[1..], k) && (k == r1[0].count ==> r1[0] == r2[0]) {
      StableSortHeadsAt(r1, r2, k);
    }
  }

  /** The head of `r1` appears, with its score, in the sorted `r2`, so `r2` starts at least as high. */
  lemma HeadScoreBound(r1: PostingList, r2: PostingList)
    requires r1 != [] && r2 != [] && SortedDesc(r2)
    requires WithScore(r1, r1[0].count) == WithScore(r2, r1[0].count)
    ensures r1[0].count <= r2[0].count
  {
    var m := r1[0].count;
    WithScoreMembers(r1, m);
    WithScoreMembers(r2, m);
    assert r1[0] in WithScore(r2, m);
    var i :| 0 <= i < |r2| && r2[i] == r1[0];
  }

  lemma StableSortHeadsAt(r1: PostingList, r2: PostingList, k: int)
    requires r1 != [] && r2 != [] && r1[0].count == r2[0].count
    requires WithScore(r1, k) == WithScore(r2, k)
    ensures WithScore(r1[1..], k) == WithScore(r2[1..], k)
    ensures k == r1[0].count ==> r1[0] == r2[0]
  {
    WithScoreCons(r1[0], r1[1..], k);
    WithScoreCons(r2[0], r2[1..], k);
    assert r1 == [r1[0]] + r1[1..] && r2 == [r2[0]] + r2[1..];
    var w1, w2 := WithScore(r1, k), WithScore(r2, k);
    if k == r1[0].count {
      assert w1[0] == r1[0] && w1[1..] == WithScore(r1[1..], k);
      assert w2[0] == r2[0] && w2[1..] == WithScore(r2[1..], k);
    } else {
      assert w1 == WithScore(r1[1..], k);
      assert w2 == WithScore(r2[1..], k);
    }
  }

  // ---------------------------------------------------------------------------
  // Search
  // ---------------------------------------------------------------------------

  datatype SearchResult = SearchResult(url: string, title: string, description: string, score: int)

  /** `metadata.get(url, {}).get(key, "")`. */
  function FieldOr(metadata: Metadata, url: string, key: string): string {
    if url in metadata && key in metadata[url] then metadata[url][key] else ""
  }

  function Join(metadata: Metadata, ranked: PostingList): seq<SearchResult> {
    seq(|ranked|, i requires 0 <= i < |ranked| =>
      SearchResult(ranked[i].url, FieldOr(metadata, ranked[i].url, "title"),
                   FieldOr(metadata, ranked[i].url, "description"), ranked[i].count))
  }

  /** The URLs of the results with score `k`, in result order. */
  function TiedUrls(results: seq<SearchResult>, k: int): seq<string> {
    if results == [] then []
    else (if results[0].score == k then [results[0].url] else []) + TiedUrls(results[1..], k)
  }

  lemma {:induction false} TiedUrlsJoin(metadata: Metadata, ranked: PostingList, k: int)
    ensures TiedUrls(Join(metadata, ranked), k) == Urls(WithScore(ranked, k))
    decreases |ranked|
  {
    if ranked == [] {
      assert Urls([]) == [];
    } else {
      TiedUrlsJoin(metadata, ranked[1..], k);
      assert Join(metadata, ranked)[1..] == Join(metadata, ranked[1..]);
      var head := if ranked[0].count == k then [ranked[0]] else [];
      UrlsAppend(head, WithScore(ranked[1..], k));
    }
  }

  /**
    serving.py `search`: results come in non-increasing score order, one per
    scored URL, each carrying the title and description the metadata holds
    for its URL (or "" when the URL or the field is missing).
   */
  function Search(nz: Normaliser, query: string, index: Index, metadata: Metadata): (results: seq<SearchResult>)
    ensures |results| == |Scores(index, Preprocess(nz, query))|
    ensures forall i, j | 0 <= i < j < |results| :: results[i].score >= results[j].score
    ensures forall i | 0 <= i < |results| ::
              && results[i].title == FieldOr(metadata, results[i].url, "title")
              && results[i].description == FieldOr(metadata, results[i].url, "description")
  {
    var scores := Scores(index, PreprocessQuery(nz, query));
    var ranked := SortDesc(scores);
    assert |ranked| == |scores| by {
      assert |multiset(ranked)| == |multiset(scores)|;
    }
    Join(metadata, ranked)
  }

  /** The ranking lists each scored URL once, with its accumulated score. */
  lemma RankedEntries(scores: PostingList, ranked: PostingList)
    requires DistinctUrls(scores) && ranked == SortDesc(scores)
    ensures DistinctUrls(ranked)
    ensures forall u :: (exists i | 0 <= i < |ranked| :: ranked[i].url == u) <==> Has(scores, u)
    ensures forall i | 0 <= i < |ranked| :: ranked[i].count == Get(scores, ranked[i].url)
  {
    SortDescDistinct(scores);
    forall u ensures (exists i | 0 <= i < |ranked| :: ranked[i].url == u) <==> Has(scores, u) {
      SameEntriesUrl(scores, ranked, u);
    }
    forall i | 0 <= i < |ranked| ensures ranked[i].count == Get(scores, ranked[i].url) {
      SameEntriesCount(scores, ranked, i);
    }
  }

  lemma SameEntriesUrl(scores: PostingList, ranked: PostingList, u: string)
    requires forall e :: e in ranked <==> e in scores
    ensures (exists i | 0 <= i < |ranked| :: ranked[i].url == u) <==> Has(scores, u)
  {
    if exists i | 0 <= i < |ranked| :: ranked[i].url == u {
      var i :| 0 <= i < |ranked| && ranked[i].url == u;
      assert ranked[i] in ranked;
      var j :| 0 <= j < |scores| && scores[j] == ranked[i];
      assert Urls(scores)[j] == u;
    }
    if Has(scores, u) {
      var j :| 0 <= j < |scores| && Urls(scores)[j] == u;
      assert scores[j] in scores;
      var i :| 0 <= i < |ranked| && ranked[i] == scores[j];
      assert ranked[i].url == u;
    }
  }

  lemma SameEntriesCount(scores: PostingList, ranked: PostingList, i: nat)
    requires DistinctUrls(scores) && i < |ranked|
    requires forall e :: e in ranked <==> e in scores
    ensures ranked[i].count == Get(scores, ranked[i].url)
  {
    assert ranked[i] in ranked;
    var j :| 0 <= j < |scores| && scores[j] == ranked[i];
    GetDistinct(scores, j);
  }

  /**
    Each URL some query token's row lists appears exactly once, with the sum
    over the query tokens (repeats included) of its counts as its score.
   */
  lemma SearchHits(nz: Normaliser, query: string, index: Index, metadata: Metadata)
    ensures var words := Preprocess(nz, query);
      var results := Search(nz, query, index, metadata);
      && (forall i, j | 0 <= i < j < |results| :: results[i].url != results[j].url)
      && (forall u :: (exists i | 0 <= i < |results| :: results[i].url == u) <==> Hit(index, words, u))
      && (forall i | 0 <= i < |results| :: results[i].score == ScoreOf(index, words, results[i].url))
  {
    var words := Preprocess(nz, query);
    var scores := Scores(index, words);
    var ranked := SortDesc(scores);
    RankedEntries(scores, ranked);
    var results := Search(nz, query, index, metadata);
    assert results == Join(metadata, ranked);
    HitsFromRanking(index, words, scores, ranked, results);
  }

  lemma HitsFromRanking(index: Index, words: seq<string>, scores: PostingList, ranked: PostingList, results: seq<SearchResult>)
    requires forall u :: Get(scores, u) == ScoreOf(index, words, u)
    requires forall u :: Has(scores, u) <==> Hit(index, words, u)
    requires DistinctUrls(ranked)
    requires forall u :: (exists i | 0 <= i < |ranked| :: ranked[i].url == u) <==> Has(scores, u)
    requires forall i | 0 <= i < |ranked| :: ranked[i].count == Get(scores, ranked[i].url)
    requires |results| == |ranked|
    requires forall i | 0 <= i < |results| :: results[i].url == ranked[i].url && results[i].score == ranked[i].count
    ensures forall i, j | 0 <= i < j < |results| :: results[i].url != results[j].url
    ensures forall u :: (exists i | 0 <= i < |results| :: results[i].url == u) <==> Hit(index, words, u)
    ensures forall i | 0 <= i < |results| :: results[i].score == ScoreOf(index, words, results[i].url)
  {
    forall u ensures (exists i | 0 <= i < |results| :: results[i].url == u) <==> Hit(index, words, u) {
      if Hit(index, words, u) {
        assert Has(scores, u);
        var i :| 0 <= i < |ranked| && ranked[i].url == u;
        assert results[i].url == u;
      }
    }
  }

  /** URLs of equal score appear in the order in which the query loop first scored them. */
  lemma SearchTies(nz: Normaliser, query: string, index: Index, metadata: Metadata, k: int)
    ensures TiedUrls(Search(nz, query, index, metadata), k) == Urls(WithScore(Scores(index, Preprocess(nz, query)), k))
  {
    var scores := Scores(index, Preprocess(nz, query));
    TiedUrlsJoin(metadata, SortDesc(scores), k);
    SortDescStable(scores, k);
  }

  /** The ranking is the only sorted order that keeps tied URLs in first-scored order. */
  lemma SearchRankingDetermined(nz: Normaliser, query: string, index: Index, ranked: PostingList)
    requires var scores := Scores(index, Preprocess(nz, query));
      && SortedDesc(ranked)
      && forall k :: WithScore(ranked, k) == WithScore(scores, k)
    ensures ranked == SortDesc(Scores(index, Preprocess(nz, query)))
  {
    var scores := Scores(index, Preprocess(nz, query));
    forall k ensures WithScore(ranked, k) == WithScore(SortDesc(scores), k) {
      SortDescStable(scores, k);
    }
    StableSortUnique(ranked, SortDesc(scores));
  }

  /** In a list with distinct URLs, `Get` finds the one entry of its URL. */
  lemma GetDistinct(ps: PostingList, j: nat)
    requires DistinctUrls(ps) && j < |ps|
    ensures Get(ps, ps[j].url) == ps[j].count
    decreases j
  {
    if j > 0 {
      assert ps[0].url != ps[j].url;
      assert ps[1..][j - 1] == ps[j];
      GetDistinct(ps[1..], j - 1);
    }
  }

  /** A query yields no results exactly when no token has a non-empty row in the index. */
  lemma SearchEmpty(nz: Normaliser, query: string, index: Index, metadata: Metadata)
    ensures var words := Preprocess(nz, query);
      Search(nz, query, index, metadata) == []
      <==> forall i | 0 <= i < |words| :: words[i] !in index || index[words[i]] == []
  {
    var words := Preprocess(nz, query);
    var results := Search(nz, query, index, metadata);
    SearchHits(nz, query, index, metadata);
    SomeHitIffRow(index, words);
    if results != [] {
      assert Hit(index, words, results[0].url);
    }
  }

  /** Some URL is hit exactly when some query token has a non-empty row. */
  lemma SomeHitIffRow(index: Index, words: seq<string>)
    ensures (exists u :: Hit(index, words, u)) <==> exists i | 0 <= i < |words| :: words[i] in index && index[words[i]] != []
  {
    if exists i | 0 <= i < |words| :: words[i] in index && index[words[i]] != [] {
      var i :| 0 <= i < |words| && words[i] in index && index[words[i]] != [];
      var row := index[words[i]];
      assert Urls(row)[0] == row[0].url;
      assert Hit(index, words, row[0].url);
    }
  }

  /** Over an index with positive counts every result scores at least 1. */
  lemma SearchScoresPositive(nz: Normaliser, query: string, index: Index, metadata: Metadata)
    requires forall w | w in index :: forall i | 0 <= i < |index[w]| :: index[w][i].count >= 1
    ensures forall r | r in Search(nz, query, index, metadata) :: r.score >= 1
  {
    var words := Preprocess(nz, query);
    var results := Search(nz, query, index, metadata);
    SearchHits(nz, query, index, metadata);
    forall i | 0 <= i < |results| ensures results[i].score >= 1 {
      ScorePositive(index, words, results[i].url);
    }
  }

  /** Searching an index built from crawl results never reports a score below 1. */
  lemma SearchBuiltIndex(nz: Normaliser, pages: seq<(string, Page)>, query: string)
    requires DistinctKeys(pages)
    ensures var b := BuildInvertedIndex(nz, pages);
      forall r | r in Search(nz, query, b.index, b.metadata) :: r.score >= 1
  {
    var b := BuildInvertedIndex(nz, pages);
    BuildCounts(nz, pages);
    SearchScoresPositive(nz, query, b.index, b.metadata);
  }
}

=== FILE: text.dfy ===
/**
  The text normaliser shared by the indexer and the query engine:
  lower-case, blank out every character that is neither a lower-case ASCII
  letter nor whitespace, split on whitespace, drop stopwords, stem.

  The stemmer and the stopword list come from an external library; they are
  parameters here (a `Normaliser` value), so every property below holds for
  any stemmer and any stopword set.
 */
module Text {
  import opened Seqs

  /** Python's `str.isspace`, which is also what `\s` and `str.split()` use on `str`. */
  predicate IsSpace(c: char) {
    var n := c as int;
    || (9 <= n <= 13) || (28 <= n <= 32) || n == 0x85 || n == 0xA0 || n == 0x1680
    || (0x2000 <= n <= 0x200A) || n == 0x2028 || n == 0x2029 || n == 0x202F
    || n == 0x205F || n == 0x3000
  }

  predicate IsLowerLetter(c: char) { 'a' <= c <= 'z' }

  predicate IsAsciiLetter(c: char) { 'a' <= c <= 'z' || 'A' <= c <= 'Z' }

  /** `str.lower()`, restricted to ASCII. */
  function LowerChar(c: char): char {
    if 'A' <= c <= 'Z' then (c as int + 32) as char else c
  }

  /** One character of `re.sub(r'[^a-z\s]', ' ', text.lower())`. */
  function CleanChar(c: char): char {
    var l := LowerChar(c);
    if IsLowerLetter(l) || IsSpace(l) then l else ' '
  }

  /**
    Position by position: a lower-case letter stays, an upper-case ASCII
    letter becomes its lower case, whitespace stays, and every other
    character becomes a space.
   */
  function Clean(s: string): (r: string)
    ensures |r| == |s|
    ensures forall i | 0 <= i < |r| :: IsLowerLetter(r[i]) || IsSpace(r[i])
    ensures forall i | 0 <= i < |s| ::
      && ('a' <= s[i] <= 'z' ==> r[i] == s[i])
      && ('A' <= s[i] <= 'Z' ==> r[i] as int == s[i] as int + 32)
      && (!IsAsciiLetter(s[i]) ==> r[i] == if IsSpace(s[i]) then s[i] else ' ')
  {
    seq(|s|, i requires 0 <= i < |s| => CleanChar(s[i]))
  }

  /** Cleaning yields a letter exactly for the ASCII letters, and whitespace otherwise. */
  lemma CleanCharClassifies(c: char)
    ensures IsLowerLetter(CleanChar(c)) <==> IsAsciiLetter(c)
    ensures IsSpace(CleanChar(c)) <==> !IsAsciiLetter(c)
  {
  }

  lemma CleanAppend(a: string, b: string)
    ensures Clean(a + b) == Clean(a) + Clean(b)
  {
  }

  // ---------------------------------------------------------------------------
  // Splitting on whitespace (`str.split()` with no argument)
  // ---------------------------------------------------------------------------

  /** A word: a non-empty run of non-whitespace characters. */
  predicate IsWord(w: string) {
    |w| > 0 && forall i | 0 <= i < |w| :: !IsSpace(w[i])
  }

  /** A gap: a possibly empty run of whitespace. */
  predicate IsGap(g: string) {
    forall i | 0 <= i < |g| :: IsSpace(g[i])
  }

  /** The length of the maximal run of non-whitespace at the start of `s`. */
  function WordLength(s: string): (n: nat)
    ensures n <= |s|
    ensures forall i | 0 <= i < n :: !IsSpace(s[i])
    ensures n < |s| ==> IsSpace(s[n])
  {
    if s == [] || IsSpace(s[0]) then 0 else 1 + WordLength(s[1..])
  }

  /** Any index that ends the leading run is the one `WordLength` finds. */
  lemma WordLengthUnique(s: string, n: nat)
    requires n <= |s|
    requires forall i | 0 <= i < n :: !IsSpace(s[i])
    requires n < |s| ==> IsSpace(s[n])
    ensures WordLength(s) == n
  {
  }

  /** Python's `str.split()` with no argument. */
  function Split(s: string): seq<string>
    decreases |s|
  {
    if s == [] then []
    else if IsSpace(s[0]) then Split(s[1..])
    else
      var n := WordLength(s);
      [s[..n]] + Split(s[n..])
  }

  /** Every piece is a word made of characters of `s`. */
  lemma {:induction false} SplitWords(s: string)
    ensures forall i | 0 <= i < |Split(s)| :: IsWord(Split(s)[i])
    ensures forall i, j | 0 <= i < |Split(s)| && 0 <= j < |Split(s)[i]| :: Split(s)[i][j] in s
    decreases |s|
  {
    if s != [] && IsSpace(s[0]) {
      SplitWords(s[1..]);
      forall i, j | 0 <= i < |Split(s)| && 0 <= j < |Split(s)[i]| ensures Split(s)[i][j] in s {
        assert Split(s)[i][j] in s[1..];
      }
    } else if s != [] {
      var n := WordLength(s);
      var rest := Split(s[n..]);
      SplitWords(s[n..]);
      forall i, j | 0 <= i < |Split(s)| && 0 <= j < |Split(s)[i]| ensures Split(s)[i][j] in s {
        if i == 0 {
          assert Split(s)[0][j] == s[j];
        } else {
          assert Split(s)[i] == rest[i - 1];
          assert rest[i - 1][j] in s[n..];
        }
      }
      forall i | 0 < i < |Split(s)| ensures IsWord(Split(s)[i]) {
        assert Split(s)[i] == rest[i - 1];
      }
    }
  }

  /** `s` rebuilt from its gaps and words: g0 + w0 + g1 + w1 + ... + gn. */
  function Interleave(gaps: seq<string>, words: seq<string>): string
    requires |gaps| == |words| + 1
    decreases |words|
  {
    if words == [] then gaps[0]
    else gaps[0] + words[0] + Interleave(gaps[1..], words[1..])
  }

  /** Words separated by whitespace gaps; only the outer two gaps may be empty. */
  predicate Separated(gaps: seq<string>, words: seq<string>) {
    && |gaps| == |words| + 1
    && (forall i | 0 <= i < |gaps| :: IsGap(gaps[i]))
    && (forall i | 0 <= i < |words| :: IsWord(words[i]))
    && (forall i | 0 < i < |words| :: |gaps[i]| > 0)
  }

  /** The whitespace runs of `s`, one more than there are words. */
  function Gaps(s: string): (gaps: seq<string>)
    ensures |gaps| == |Split(s)| + 1
    ensures s != [] && IsSpace(s[0]) ==> |gaps[0]| > 0
    decreases |s|
  {
    if s == [] then [[]]
    else if IsSpace(s[0]) then
      var g := Gaps(s[1..]);
      [[s[0]] + g[0]] + g[1..]
    else
      var n := WordLength(s);
      [[]] + Gaps(s[n..])
  }

  /** Every string is its words separated by its gaps. */
  lemma {:induction false} SplitSound(s: string)
    ensures Separated(Gaps(s), Split(s))
    ensures Interleave(Gaps(s), Split(s)) == s
    decreases |s|
  {
    if s == [] {
    } else if IsSpace(s[0]) {
      SplitSound(s[1..]);
      SplitSoundSpace(s);
      InterleaveSpace(s);
    } else {
      SplitSound(s[WordLength(s)..]);
      SplitSoundWord(s);
      InterleaveWord(s);
    }
  }

  lemma InterleaveCons(g0: string, w: string, gaps: seq<string>, words: seq<string>)
    requires |gaps| == |words| + 1
    ensures Interleave([g0] + gaps, [w] + words) == g0 + w + Interleave(gaps, words)
  {
    assert ([g0] + gaps)[1..] == gaps && ([w] + words)[1..] == words;
  }

  lemma InterleaveWiden(c: char, gaps: seq<string>, words: seq<string>)
    requires |gaps| == |words| + 1
    ensures Interleave([[c] + gaps[0]] + gaps[1..], words) == [c] + Interleave(gaps, words)
  {
    var gs := [[c] + gaps[0]] + gaps[1..];
    assert gs[1..] == gaps[1..];
  }

  lemma SplitSoundSpace(s: string)
    requires s != [] && IsSpace(s[0])
    requires Separated(Gaps(s[1..]), Split(s[1..]))
    ensures Separated(Gaps(s), Split(s))
  {
    var g := Gaps(s[1..]);
    var gs := Gaps(s);
    assert gs == [[s[0]] + g[0]] + g[1..];
    assert Split(s) == Split(s[1..]);
    assert forall i | 0 < i < |gs| :: gs[i] == g[i];
    assert IsGap(gs[0]) by {
      assert IsGap(g[0]);
    }
  }

  lemma InterleaveSpace(s: string)
    requires s != [] && IsSpace(s[0])
    requires Interleave(Gaps(s[1..]), Split(s[1..])) == s[1..]
    ensures Interleave(Gaps(s), Split(s)) == s
  {
    var g := Gaps(s[1..]);
    assert Gaps(s) == [[s[0]] + g[0]] + g[1..];
    assert Split(s) == Split(s[1..]);
    InterleaveWiden(s[0], g, Split(s[1..]));
    assert s == [s[0]] + s[1..];
  }

  lemma SplitSoundWord(s: string)
    requires s != [] && !IsSpace(s[0])
    requires Separated(Gaps(s[WordLength(s)..]), Split(s[WordLength(s)..]))
    ensures Separated(Gaps(s), Split(s))
  {
    var n := WordLength(s);
    var rest := s[n..];
    var g := Gaps(rest);
    var ws := Split(rest);
    var gs := Gaps(s);
    var words := Split(s);
    assert gs == [[]] + g;
    assert words == [s[..n]] + ws;
    assert forall i | 0 < i < |gs| :: gs[i] == g[i - 1];
    assert forall i | 0 < i < |words| :: words[i] == ws[i - 1];
    if ws != [] {
      assert rest != [] && IsSpace(rest[0]);
      assert |g[0]| > 0;
    }
  }

  lemma InterleaveWord(s: string)
    requires s != [] && !IsSpace(s[0])
    requires Interleave(Gaps(s[WordLength(s)..]), Split(s[WordLength(s)..])) == s[WordLength(s)..]
    ensures Interleave(Gaps(s), Split(s)) == s
  {
    var n := WordLength(s);
    UnfoldWord(s);
    InterleaveAfterWord(s, n, Gaps(s[n..]), Split(s[n..]));
  }

  lemma InterleaveAfterWord(s: string, n: nat, gaps: seq<string>, words: seq<string>)
    requires n <= |s| && |gaps| == |words| + 1
    requires Interleave(gaps, words) == s[n..]
    ensures Interleave([[]] + gaps, [s[..n]] + words) == s
  {
    InterleaveCons([], s[..n], gaps, words);
    assert s == s[..n] + s[n..];
  }

  lemma UnfoldWord(s: string)
    requires s != [] && !IsSpace(s[0])
    ensures Gaps(s) == [[]] + Gaps(s[WordLength(s)..])
    ensures Split(s) == [s[..WordLength(s)]] + Split(s[WordLength(s)..])
  {
  }

  lemma {:induction false} SplitGap(g: string, t: string)
    requires IsGap(g)
    ensures Split(g + t) == Split(t)
    decreases |g|
  {
    if g != [] {
      assert (g + t)[0] == g[0] && IsSpace(g[0]);
      assert (g + t)[1..] == g[1..] + t;
      assert IsGap(g[1..]);
      SplitGap(g[1..], t);
      assert Split(g + t) == Split((g + t)[1..]);
    } else {
      assert g + t == t;
    }
  }

  /** A decomposition into words and gaps determines the words: they are `Split`'s. */
  lemma {:induction false} SplitUnique(gaps: seq<string>, words: seq<string>)
    requires Separated(gaps, words)
    ensures Split(Interleave(gaps, words)) == words
    decreases |words|
  {
    if words == [] {
      SplitGap(gaps[0], []);
      assert gaps[0] + [] == gaps[0];
    } else {
      var w := words[0];
      var rest := Interleave(gaps[1..], words[1..]);
      assert Separated(gaps[1..], words[1..]);
      SplitUnique(gaps[1..], words[1..]);
      var t := w + rest;
      assert Interleave(gaps, words) == gaps[0] + t;
      SplitGap(gaps[0], t);
      if words[1..] != [] {
        assert |gaps[1]| > 0;
        assert rest == gaps[1] + words[1] + Interleave(gaps[2..], words[2..]);
        assert rest[0] == gaps[1][0];
      } else {
        assert rest == gaps[1];
      }
      WordLengthUnique(t, |w|);
      assert t[..|w|] == w;
      assert t[|w|..] == rest;
    }
  }

  /** Splitting distributes over a join at any whitespace character. */
  lemma {:induction false} SplitAtSpace(a: string, c: char, b: string)
    requires IsSpace(c)
    ensures Split(a + [c] + b) == Split(a) + Split(b)
    decreases |a|
  {
    var s := a + [c] + b;
    if a == [] {
      assert s[1..] == b;
    } else if IsSpace(a[0]) {
      CutJoined(a, c, b, 1);
      SplitAtSpace(a[1..], c, b);
    } else {
      var n := WordLength(a);
      WordLengthUnique(s, n);
      CutJoined(a, c, b, n);
      SplitAtSpace(a[n..], c, b);
    }
  }

  /** Cutting `a + [c] + b` inside `a`. */
  lemma CutJoined(a: string, c: char, b: string, n: nat)
    requires n <= |a|
    ensures (a + [c] + b)[..n] == a[..n]
    ensures (a + [c] + b)[n..] == a[n..] + [c] + b
  {
  }

  // ---------------------------------------------------------------------------
  // The whole pipeline
  // ---------------------------------------------------------------------------

  /** The stopword set and the stemmer, both supplied by the caller. */
  datatype Normaliser = Normaliser(stopwords: set<string>, stem: string -> string)

  /** A non-empty run of lower-case ASCII letters. */
  predicate IsLetterWord(w: string) {
    |w| > 0 && forall i | 0 <= i < |w| :: IsLowerLetter(w[i])
  }

  /** The words of the cleaned text, in order. */
  function Words(text: string): (words: seq<string>)
    ensures forall i | 0 <= i < |words| :: IsLetterWord(words[i])
  {
    var s := Clean(text);
    var ws := Split(s);
    SplitWords(s);
    assert forall i, j | 0 <= i < |ws| && 0 <= j < |ws[i]| :: IsLowerLetter(ws[i][j]) by {
      forall i, j | 0 <= i < |ws| && 0 <= j < |ws[i]|
        ensures IsLowerLetter(ws[i][j])
      {
        var c := ws[i][j];
        assert c in s && !IsSpace(c);
      }
    }
    ws
  }

  /** The words that are not stopwords, in their original order. */
  function Kept(stopwords: set<string>, words: seq<string>): (kept: seq<string>)
    ensures forall w | w in kept :: w in words && w !in stopwords
    ensures forall w | w in words && w !in stopwords :: w in kept
    ensures |words| == 1 ==> kept == if words[0] in stopwords then [] else words
  {
    if words == [] then []
    else (if words[0] in stopwords then [] else [words[0]]) + Kept(stopwords, words[1..])
  }

  lemma {:induction false} KeptAppend(stopwords: set<string>, a: seq<string>, b: seq<string>)
    ensures Kept(stopwords, a + b) == Kept(stopwords, a) + Kept(stopwords, b)
    decreases |a|
  {
    if a != [] {
      assert (a + b)[0] == a[0];
      assert (a + b)[1..] == a[1..] + b;
      KeptAppend(stopwords, a[1..], b);
      var head := if a[0] in stopwords then [] else [a[0]];
      assert Kept(stopwords, a + b) == head + Kept(stopwords, (a + b)[1..]);
      ConcatAssoc(head, Kept(stopwords, a[1..]), Kept(stopwords, b));
    } else {
      assert a + b == b;
    }
  }

  function StemAll(stem: string -> string, words: seq<string>): seq<string> {
    seq(|words|, i requires 0 <= i < |words| => stem(words[i]))
  }

  lemma StemAllAppend(stem: string -> string, a: seq<string>, b: seq<string>)
    ensures StemAll(stem, a + b) == StemAll(stem, a) + StemAll(stem, b)
  {
  }

  /** indexer.py `preprocess_text`. */
  function Preprocess(nz: Normaliser, text: string): seq<string> {
    StemAll(nz.stem, Kept(nz.stopwords, Words(text)))
  }

  /** Every token is the stem of a non-stopword word of the text, and such words are all-letter. */
  lemma PreprocessSound(nz: Normaliser, text: string)
    ensures forall i | 0 <= i < |Preprocess(nz, text)| ::
      exists w :: w in Words(text) && IsLetterWord(w) && w !in nz.stopwords && Preprocess(nz, text)[i] == nz.stem(w)
  {
    var words := Words(text);
    var kept := Kept(nz.stopwords, words);
    var tokens := Preprocess(nz, text);
    assert |tokens| == |kept|;
    forall i | 0 <= i < |tokens|
      ensures exists w :: w in words && IsLetterWord(w) && w !in nz.stopwords && tokens[i] == nz.stem(w)
    {
      assert kept[i] in kept;
      var j :| 0 <= j < |words| && words[j] == kept[i];
      assert tokens[i] == nz.stem(kept[i]);
    }
  }

  /**
    Completeness: every word of the text that is not a stopword yields a
    token, in place. The word at index `j` becomes the token whose index is
    the number of words kept before it, and that token is its stem.
   */
  lemma PreprocessComplete(nz: Normaliser, text: string, j: nat)
    requires j < |Words(text)| && Words(text)[j] !in nz.stopwords
    ensures var k := |Kept(nz.stopwords, Words(text)[..j])|;
      k < |Preprocess(nz, text)| && Preprocess(nz, text)[k] == nz.stem(Words(text)[j])
  {
    var ws := Words(text);
    var before, w, after := ws[..j], ws[j], ws[j + 1..];
    assert ws == before + ([w] + after);
    KeptAppend(nz.stopwords, before, [w] + after);
    KeptAppend(nz.stopwords, [w], after);
    var kb := Kept(nz.stopwords, before);
    assert Kept(nz.stopwords, [w]) == [w];
    assert Kept(nz.stopwords, ws) == kb + ([w] + Kept(nz.stopwords, after));
    assert Kept(nz.stopwords, ws)[|kb|] == w;
  }

  /** Splitting the text at any non-letter character splits the token sequence there. */
  lemma PreprocessAtSeparator(nz: Normaliser, a: string, c: char, b: string)
    requires !IsAsciiLetter(c)
    ensures Preprocess(nz, a + [c] + b) == Preprocess(nz, a) + Preprocess(nz, b)
  {
    CleanAppend(a + [c], b);
    CleanAppend(a, [c]);
    CleanCharClassifies(c);
    var ca, cb := Clean(a), Clean(b);
    var cc := CleanChar(c);
    assert Clean([c]) == [cc];
    assert Clean(a + [c] + b) == ca + [cc] + cb;
    SplitAtSpace(ca, cc, cb);
    KeptAppend(nz.stopwords, Split(ca), Split(cb));
    StemAllAppend(nz.stem, Kept(nz.stopwords, Split(ca)), Kept(nz.stopwords, Split(cb)));
  }

  /** Joining with a space never fuses words across the two parts. */
  lemma PreprocessJoin(nz: Normaliser, a: string, b: string)
    ensures Preprocess(nz, a + " " + b) == Preprocess(nz, a) + Preprocess(nz, b)
  {
    PreprocessAtSeparator(nz, a, ' ', b);
  }

  lemma PreprocessEmpty(nz: Normaliser)
    ensures Preprocess(nz, "") == []
  {
    assert Clean("") == "";
  }
}
